=== FILE: README.md ===
# GravesX Economy module: charging for grave actions

A Dafny model of the GravesX economy module. The module charges players through a Vault economy for four grave actions: teleporting to a grave, opening one, auto-looting one and breaking one. The model covers:

- the per-type charge settings and how a cost is computed and printed (`ChargeConfig`);
- the charge-or-cancel decision of the event listener and the cancel rule of its four handlers (`VaultEconomyListener`);
- the PlaceholderAPI answers for the currency symbol, a type's cost and a type's percentage (`EconomyPlaceholders`);
- the translation store: flattening language files, deriving locale keys, the locale fallback and `{name}` placeholders (`I18n`);
- the `/graveecon reload` command and its tab completion (`EconReloadCommand`, `EconReloadTab`);
- the shared holder of the configuration in force (`EconomyRuntime`).

Money is exact. A `Decimal(unscaled, scale)` is the number `unscaled / 10^scale`, as a `java.math.BigDecimal` is. HALF_UP rounding, `stripTrailingZeros` and `toPlainString` are modelled on it. `toPlainString` (`Decimals.Plain`) has a parser as its inverse. Every printed amount is stated as `Plain` of the decimal its text reads back as, so the text itself is fixed. `Decimals.PlainCanonicalText` shows that `Plain` writes a minus sign only for a negative number and never a leading zero before another digit, so `05.5` and `-0` are never printed.

The configuration is a tree, as Bukkit's `MemorySection` is:

- a node is a scalar, a list, or a section of keyed entries kept in insertion order;
- a dotted path is cut at every `.`;
- the typed getters return the caller's default unless the stored value has the expected kind. The exception is `getString` (`Config.GetString`), which gives the text of any non-null scalar and of a list;
- `set` (`Config.Set`) is the getters' partner: it creates sections along the path, and lemmas read each setting back and show that other paths are untouched.

A tree is used, not a flat key/value map, because the placeholder code and the translation loader both walk sections and depend on key order. The placeholder code takes the first key that matches ignoring case, and the translation loader visits keys in file order.

Modules, one per file:

- `wrappers.dfy`: `Option`, `Result`.
- `text.dfy`: the `java.lang.String` operations used, modelled on ASCII text. These are case mapping, `trim`, `endsWith`, `split`/`join` and `replace`.
- `decimals.dfy`: BigDecimal arithmetic, rounding, plain printing and parsing.
- `config.dfy`: the configuration tree, its getters and `set`.
- `charges.dfy`, `runtime.dfy`, `listener.dfy`, `placeholders.dfy`, `i18n.dfy`, `reload.dfy`: one module per class.

Points where the model follows the code rather than what its comments or callers suggest:

- **Zero cost cancels.** The doc comment on `chargeOrCancel` suggests a free action goes ahead. The code returns `false` for any rounded cost of zero or less, which cancels the event. `Listener.Settle` models the code: a cost of zero or less cancels with no withdrawal and no message.
- **Four members the listener needs are missing.** `requirePermission`, `permissionNode`, `msgInsufficient` and `msgCharged` are called on `ChargeConfig` but are not defined in it. They are given to the listener as functions of the configuration (`Listener.Hooks`), and nothing is assumed about them.
- **The listener's constructor takes three arguments.** The module class calls it with four. The model takes the runtime, the hooks, the player and the economy's answers as parameters, so the constructor mismatch does not arise.
- **Two different currency defaults.** `ChargeConfig.currency()` defaults to `$`. The placeholder expansion reads the same key with default `""`.
- **Two different rounding readings.** The placeholder expansion uses `round-to-decimals` as written, even when negative. `ChargeConfig.rounding()` clamps it at 0. A negative scale is rounding to tens, hundreds and so on; such a BigDecimal prints plainly with its zeros, and that is how it is modelled.
- **The placeholder expansion keeps the configuration object it was built with** (`EconomyPlaceholders.java:17, 21`). Its functions take that configuration as their `cfg`. Whether `ctx.reloadConfig()` (`EconReloadCommand.java:81`) refills that object in place or replaces it is decided in `ModuleContext`, which is not part of this model. The model assumes nothing about it: a caller passes whichever configuration the expansion holds.
- **A disabled type or an exempt player lets the action go ahead.** The doc comment on `chargeOrCancel` (`VaultEconomyListener.java:96`) says both cancel the action. The code returns `true` for both (`VaultEconomyListener.java:106-112`), so the event is not cancelled. `Listener.ChargeOrCancel`, `Listener.DisabledTypeUntouched` and `Listener.DisabledEventGoesAhead` model the code.
- **An unknown mode name is an uncaught exception.** `Mode.valueOf` throws it. The decision then ends in `Raised`, after the balance was read. The handler's `setCancelled` is never reached, so the event stays as it was (`Listener.Handle`).

## Model

| member | source | states |
|---|---|---|
| Charges.TypePathPieces | src/main/java/dev/cwhead/GravesX/modules/economy/ChargeConfig.java:52-54 | A per-type key is walked as `types`, then the type's constant name, then the pieces of the tail. |
| Charges.SettingsApart | src/main/java/dev/cwhead/GravesX/modules/economy/ChargeConfig.java:52-54 | Two settings `<group>.<a>` and `<group>.<b>` of one type, with `a` different from `b`, are different paths. |
| Charges.IsTypeEnabled | src/main/java/dev/cwhead/GravesX/modules/economy/ChargeConfig.java:25-27 | A type is disabled exactly when its `enabled` key holds the boolean `false`. An absent key, or a value of another kind, leaves it enabled. |
| Charges.EnabledReadsBack | src/main/java/dev/cwhead/GravesX/modules/economy/ChargeConfig.java:25-27 | An `enabled` flag set in the configuration is what `isTypeEnabled` reports. |
| Charges.Rounding | src/main/java/dev/cwhead/GravesX/modules/economy/ChargeConfig.java:30-32 | Never negative. It is 2 when no number is configured, otherwise the configured count, replaced by 0 when that count is negative. |
| Charges.RoundingReadsBack | src/main/java/dev/cwhead/GravesX/modules/economy/ChargeConfig.java:30-32 | A configured count `k` gives `max(0, k)`. |
| Charges.Currency | src/main/java/dev/cwhead/GravesX/modules/economy/ChargeConfig.java:35-37 | `$` when no symbol is configured. |
| Charges.CurrencyReadsBack | src/main/java/dev/cwhead/GravesX/modules/economy/ChargeConfig.java:35-37 | A configured symbol is what `currency()` returns. |
| Charges.ParseMode | src/main/java/dev/cwhead/GravesX/modules/economy/ChargeConfig.java:41 | The text is uppercased. It yields FIXED, or PERCENT_BALANCE, exactly when the uppercased text is that constant's name. Otherwise it is the error naming the uppercased text. |
| Charges.ParseModeIgnoresCase | src/main/java/dev/cwhead/GravesX/modules/economy/ChargeConfig.java:41 | Two mode texts equal up to case parse alike. |
| Charges.ParseModeName | src/main/java/dev/cwhead/GravesX/modules/economy/ChargeConfig.java:41 | Every mode's name, written in any case, parses back to that mode. |
| Charges.PercentOf | src/main/java/dev/cwhead/GravesX/modules/economy/ChargeConfig.java:46 | The share times 100 equals balance times percentage, exactly. |
| Charges.ComputeCost | src/main/java/dev/cwhead/GravesX/modules/economy/ChargeConfig.java:40-49 | Fails exactly when the mode text (default `FIXED`) names no mode, with that error. Never negative. FIXED gives the fixed price (default 0), or 0 if the price is negative. PERCENT_BALANCE gives `balance * pct / 100` (pct default 0), or 0 if that is negative. |
| Charges.ModeSurvives | src/main/java/dev/cwhead/GravesX/modules/economy/ChargeConfig.java:41-45 | Setting the fixed price or the percentage after the mode leaves the mode setting as written. |
| Charges.FixedCostReadsBack | src/main/java/dev/cwhead/GravesX/modules/economy/ChargeConfig.java:43 | With mode FIXED (any case) and a non-negative fixed price configured, the cost is that price, whatever the balance. |
| Charges.PercentCostReadsBack | src/main/java/dev/cwhead/GravesX/modules/economy/ChargeConfig.java:44-47 | With mode PERCENT_BALANCE and a configured percentage, the cost is that share of a non-negative balance. |
| Charges.Fmt | src/main/java/dev/cwhead/GravesX/modules/economy/ChargeConfig.java:57-61 | The text is `toPlainString` of a decimal with no trailing fractional zero and at most `rounding()` fractional digits. Padded back to `rounding()` places, that decimal is the HALF_UP rounding of the amount. With `HalfUpUnique`, this fixes the text. |
| Charges.FmtIdempotent | src/main/java/dev/cwhead/GravesX/modules/economy/ChargeConfig.java:59-60 | Formatting an amount read back from `fmt`'s own text gives the same text. |
| Charges.FmtWhole | src/main/java/dev/cwhead/GravesX/modules/economy/ChargeConfig.java:57-61 | A whole amount keeps its integer zeros: 100 prints as `100`. |
| Decimals.SetScale | src/main/java/dev/cwhead/GravesX/modules/economy/ChargeConfig.java:59 | For non-negative places: the result has that scale and is the HALF_UP rounding. For negative places: a multiple of the power of ten whose quotient is the HALF_UP rounding. |
| Decimals.HalfUpUnique | src/main/java/dev/cwhead/GravesX/modules/economy/ChargeConfig.java:59 | At most one integer satisfies the HALF_UP condition, so that condition defines the rounding. |
| Decimals.StripTrailingZeros | src/main/java/dev/cwhead/GravesX/modules/economy/ChargeConfig.java:60 | The result has no trailing fractional zero. Padding it back to the original scale gives the original decimal. |
| Decimals.StripPad | src/main/java/dev/cwhead/GravesX/modules/economy/ChargeConfig.java:60 | Stripping a decimal that was padded with zeros gives back the unpadded canonical decimal. |
| Decimals.PlainCanonicalText | src/main/java/dev/cwhead/GravesX/modules/economy/ChargeConfig.java:60 | `toPlainString` writes a minus sign exactly when the number is negative, so never `-0`. It writes no zero in front of another integer digit. |
| Decimals.ParsePlain | src/main/java/dev/cwhead/GravesX/modules/economy/ChargeConfig.java:60 | Reading back a plain string gives the decimal that was printed. |
| Decimals.Render | src/main/java/dev/cwhead/GravesX/modules/economy/integration/EconomyPlaceholders.java:90-91 | The text is `toPlainString` of a canonical decimal that is the HALF_UP rounding to `places`. For negative `places`, that decimal is a whole multiple of `10^-places`. |
| Decimals.RenderIdempotent | src/main/java/dev/cwhead/GravesX/modules/economy/integration/EconomyPlaceholders.java:90-91 | Rendering what was rendered, at the same places, gives the same text. |
| Decimals.RenderWhole | src/main/java/dev/cwhead/GravesX/modules/economy/integration/EconomyPlaceholders.java:90-91 | A whole number renders as its integer digits at any non-negative places. |
| Runtime.New | src/main/java/dev/cwhead/GravesX/modules/economy/EconomyRuntime.java:23-25 | `get()` after construction returns the initial configuration. |
| Runtime.Set | src/main/java/dev/cwhead/GravesX/modules/economy/EconomyRuntime.java:41-43 | `get()` afterwards returns `next`. The holder is the one a fresh construction with `next` gives, so no other state survives. |
| Runtime.LastSetWins | src/main/java/dev/cwhead/GravesX/modules/economy/EconomyRuntime.java:41-43 | After a run of `set` calls, `get()` returns the last value. With no calls, the holder is unchanged. |
| Listener.RoundCost | src/main/java/dev/cwhead/GravesX/modules/economy/VaultEconomyListener.java:158-161 | Negative places leave the value alone. Otherwise the result has that scale and is the HALF_UP rounding. |
| Listener.RoundCostUnique | src/main/java/dev/cwhead/GravesX/modules/economy/VaultEconomyListener.java:158-161 | `round` returns the one HALF_UP rounding there is. |
| Listener.Send | src/main/java/dev/cwhead/GravesX/modules/economy/VaultEconomyListener.java:142-143 | An empty message sends nothing. Any other message is sent once, as it is. |
| Listener.Settle | src/main/java/dev/cwhead/GravesX/modules/economy/VaultEconomyListener.java:114-133 | Always starts by reading the balance. A cost of 0 or less cancels, with nothing else. A balance below the cost cancels with the "insufficient" message and no withdrawal. Otherwise exactly one withdrawal of exactly the cost is attempted: success goes ahead with the "charged" message, a null or failed response cancels with the "insufficient" message. |
| Listener.ChargeOrCancel | src/main/java/dev/cwhead/GravesX/modules/economy/VaultEconomyListener.java:103-134 | A disabled type, or a player the permission rule exempts, goes ahead with no effect at all, and only these do. Otherwise the balance is read first and at most one withdrawal is attempted, for the rounded cost, only when that cost is positive and affordable. The action goes ahead after effects exactly when that withdrawal succeeded. An unknown mode raises exactly when the economy was reached, and then the balance query is the only effect. |
| Listener.PaysOnlyForWhatProceeds | src/main/java/dev/cwhead/GravesX/modules/economy/VaultEconomyListener.java:126-133 | A cancelled or untouched action costs the player nothing. One that goes ahead after reaching the economy costs exactly the rounded configured cost, which is positive and within the balance. |
| Listener.DisabledTypeUntouched | src/main/java/dev/cwhead/GravesX/modules/economy/VaultEconomyListener.java:106-108 | With `enabled: false` configured for a type, the decision allows the action and touches neither the economy nor the player. |
| Listener.Handle | src/main/java/dev/cwhead/GravesX/modules/economy/VaultEconomyListener.java:53-92 | An event that is already cancelled never reaches a handler (`ignoreCancelled`). It stays cancelled and nobody is charged. Otherwise a handler decides exactly when there is a player to charge, and cancels the event exactly when the decision is to cancel. |
| Listener.HandlerPaysOnlyForWhatProceeds | src/main/java/dev/cwhead/GravesX/modules/economy/VaultEconomyListener.java:53-92 | A player never pays for an event that ends up cancelled. Whatever a handler takes is the positive, affordable rounded cost of the event's type, and the event then goes ahead. |
| Listener.NonPlayerTeleportIgnored | src/main/java/dev/cwhead/GravesX/modules/economy/VaultEconomyListener.java:53-58 | A teleport not made by a player, or made by one but naming no player, is neither charged nor cancelled by the handler. |
| Listener.DisabledEventGoesAhead | src/main/java/dev/cwhead/GravesX/modules/economy/VaultEconomyListener.java:103-108 | An event whose type has `enabled: false` is never cancelled by its handler, and its decision has no effect at all. |
| Placeholders.OnRequest | src/main/java/dev/cwhead/GravesX/modules/economy/integration/EconomyPlaceholders.java:51 | An empty parameter answers `""`. |
| Placeholders.ParseRequest | src/main/java/dev/cwhead/GravesX/modules/economy/integration/EconomyPlaceholders.java:56-70 | The three currency aliases ask for the symbol. Otherwise a `_cost_percentage` suffix asks for the percentage of the type written before it. Otherwise a `_cost` suffix asks for that type's cost. Anything else asks for nothing. Each branch holds exactly when its condition does. |
| Placeholders.RequestNormalised | src/main/java/dev/cwhead/GravesX/modules/economy/integration/EconomyPlaceholders.java:54 | Padding a parameter with blanks and changing the case of its letters changes no answer. |
| Placeholders.NormalFormFixed | src/main/java/dev/cwhead/GravesX/modules/economy/integration/EconomyPlaceholders.java:54 | Lowercasing and trimming leave a parameter that is already lowercase and unpadded exactly as it is. |
| Placeholders.CurrencyAliasAnswers | src/main/java/dev/cwhead/GravesX/modules/economy/integration/EconomyPlaceholders.java:56-58 | `currency_symbol`, `currencysymbol` and `currency-symbol`, in any case, answer the configured symbol. |
| Placeholders.CostRequestRoundTrip | src/main/java/dev/cwhead/GravesX/modules/economy/integration/EconomyPlaceholders.java:65-67 | Any type name followed by `_cost` asks for that type's cost. |
| Placeholders.CostRequestAnswers | src/main/java/dev/cwhead/GravesX/modules/economy/integration/EconomyPlaceholders.java:65-68 | `<type>_cost` answers that type's formatted cost. |
| Placeholders.PercentRequestRoundTrip | src/main/java/dev/cwhead/GravesX/modules/economy/integration/EconomyPlaceholders.java:60-62 | Any type name followed by `_cost_percentage` asks for that type's percentage. |
| Placeholders.PercentRequestAnswers | src/main/java/dev/cwhead/GravesX/modules/economy/integration/EconomyPlaceholders.java:60-63 | `<type>_cost_percentage` answers that type's percentage. |
| Placeholders.CurrencySymbol | src/main/java/dev/cwhead/GravesX/modules/economy/integration/EconomyPlaceholders.java:73-75 | No symbol configured answers `""`. A configured non-null value answers its text. |
| Placeholders.CurrencySymbolReadsBack | src/main/java/dev/cwhead/GravesX/modules/economy/integration/EconomyPlaceholders.java:73-75 | A symbol written with `set` is what `getCurrencySymbol` answers. |
| Placeholders.SymbolAgreesWithCurrency | src/main/java/dev/cwhead/GravesX/modules/economy/integration/EconomyPlaceholders.java:73-75 | The expansion and `ChargeConfig.currency()` agree whenever a symbol is configured. They differ only in the default: `""` against `$`. |
| Placeholders.FirstMatch | src/main/java/dev/cwhead/GravesX/modules/economy/integration/EconomyPlaceholders.java:115-121 | The position found holds a key equal to the search ignoring case, and no earlier key does. None means no key does. |
| Placeholders.TypeSection | src/main/java/dev/cwhead/GravesX/modules/economy/integration/EconomyPlaceholders.java:110-122 | An empty type, or a configuration without `types`, gives none. A section found is the one under the first key of `types` that matches the type ignoring case. |
| Placeholders.TypeSectionFinds | src/main/java/dev/cwhead/GravesX/modules/economy/integration/EconomyPlaceholders.java:110-122 | When the first key of `types` matching the type, in any case, holds a section, that section is found. |
| Placeholders.CostOfFixed | src/main/java/dev/cwhead/GravesX/modules/economy/integration/EconomyPlaceholders.java:85-93 | `""` exactly when there is no fixed price. Otherwise the symbol followed by the price rendered at `round-to-decimals` places (default 2, unclamped). |
| Placeholders.CostReadsBack | src/main/java/dev/cwhead/GravesX/modules/economy/integration/EconomyPlaceholders.java:77-94 | A fixed price written with `set` at `types.<key>.charge.fixed` is what the cost placeholder answers for any spelling of `key`: the configured symbol, then the price rendered at `round-to-decimals` places. This holds when `key` is the only key of `types` matching that spelling ignoring case. |
| Placeholders.UnknownTypeAnswersNothing | src/main/java/dev/cwhead/GravesX/modules/economy/integration/EconomyPlaceholders.java:110-122 | An empty type, a configuration without `types`, or a type that no key of `types` matches ignoring case answers `""` to both the cost and the percent placeholder. |
| Placeholders.CostIgnoresMode | src/main/java/dev/cwhead/GravesX/modules/economy/integration/EconomyPlaceholders.java:84 | Whatever mode is set beside the fixed price, the cost placeholder renders the same text. |
| Placeholders.StrippedSame | src/main/java/dev/cwhead/GravesX/modules/economy/integration/EconomyPlaceholders.java:106 | `stripTrailingZeros` keeps the number's value. |
| Placeholders.PercentOfCharge | src/main/java/dev/cwhead/GravesX/modules/economy/integration/EconomyPlaceholders.java:103-107 | `""` exactly when there is no percentage. Otherwise the text ends in `%`. What comes before is `toPlainString` of a canonical decimal equal to the percentage, unrounded. |
| Placeholders.PercentReadsBack | src/main/java/dev/cwhead/GravesX/modules/economy/integration/EconomyPlaceholders.java:96-108 | A percentage written with `set` at `types.<key>.charge.percent` is what the percent placeholder answers for any spelling of `key`, under the same condition: its plain text without trailing zeros, then `%`. |
| I18n.QualifyJoin | src/main/java/dev/cwhead/GravesX/modules/economy/util/I18n.java:53 | Qualifying a dotted path in one go gives the same full key as qualifying its first piece and then the rest, as the recursion does. |
| I18n.FlattenFrame | src/main/java/dev/cwhead/GravesX/modules/economy/util/I18n.java:51-69 | Entries whose full keys lie elsewhere leave the value stored at a key untouched. |
| I18n.SiblingsApart | src/main/java/dev/cwhead/GravesX/modules/economy/util/I18n.java:53 | The full keys of two distinct dot-free sibling keys share no key below them. |
| I18n.FlattenFinds | src/main/java/dev/cwhead/GravesX/modules/economy/util/I18n.java:51-69 | In a well-formed file, every path that reaches a non-null value or a list appears under its dotted key. It holds the value's `String.valueOf`, or the list's values joined with newlines. |
| I18n.FlattenSoundFrom | src/main/java/dev/cwhead/GravesX/modules/economy/util/I18n.java:51-69 | Flattening adds nothing but texts the section holds, each under the key that reaches it. |
| I18n.FlattenIsGet | src/main/java/dev/cwhead/GravesX/modules/economy/util/I18n.java:51-69 | For a well-formed file, a key is in the flat map exactly when `get` of that dotted key reaches a non-null value or a list, and it holds that text. Sections and nulls add no key. |
| I18n.LocaleKeyOf | src/main/java/dev/cwhead/GravesX/modules/economy/util/I18n.java:38 | The locale key of `<base>.yml`, for a dot-free base name, is the base lowercased. |
| I18n.LoadLanguages | src/main/java/dev/cwhead/GravesX/modules/economy/util/I18n.java:28-45 | A folder that cannot be listed changes nothing. The default language is never changed. |
| I18n.PutLanguagesAt | src/main/java/dev/cwhead/GravesX/modules/economy/util/I18n.java:37-44 | Each locale key ends up with the flattened contents of the last listed file carrying it. A key no file carries keeps its earlier entry. |
| I18n.LoadedFrom | src/main/java/dev/cwhead/GravesX/modules/economy/util/I18n.java:32-44 | After a reload, a locale key has messages exactly when some `.yml` file has that key, and then they are the last such file's. Nothing from before the reload survives. |
| I18n.NewI18n | src/main/java/dev/cwhead/GravesX/modules/economy/util/I18n.java:22-26 | The default language is the given one, or `en_us` when none is given, lowercased. It is stored in lowercase. |
| I18n.NewI18nIgnoresCase | src/main/java/dev/cwhead/GravesX/modules/economy/util/I18n.java:24 | Two default languages that differ only in case build the same translator, so every later translation agrees. |
| I18n.NewI18nTranslates | src/main/java/dev/cwhead/GravesX/modules/economy/util/I18n.java:22-26 | After construction over a listing, a translation with no locale answers each key of the last file carrying the default language's locale key with that file's text. |
| I18n.Token | src/main/java/dev/cwhead/GravesX/modules/economy/util/I18n.java:81 | The token of a placeholder is its name in braces. |
| I18n.TranslateAsked | src/main/java/dev/cwhead/GravesX/modules/economy/util/I18n.java:72-84 | A key the asked locale holds, in any case of the locale's name, is answered from that locale, filled with the placeholders when there are any. |
| I18n.TranslateFallsBack | src/main/java/dev/cwhead/GravesX/modules/economy/util/I18n.java:74-84 | A key the asked locale lacks is answered from the default language when that holds it, filled likewise. |
| I18n.TranslateLocaleCase | src/main/java/dev/cwhead/GravesX/modules/economy/util/I18n.java:72 | Two locale names that differ only in case translate every key alike. |
| I18n.TranslateDefaultLocale | src/main/java/dev/cwhead/GravesX/modules/economy/util/I18n.java:72 | No locale, the empty locale and the default language itself translate every key alike, for any stored default, the empty one included. |
| I18n.FillNoBraces | src/main/java/dev/cwhead/GravesX/modules/economy/util/I18n.java:79-83 | A message containing no `{` is unchanged by any placeholders. |
| I18n.FillTemplate | src/main/java/dev/cwhead/GravesX/modules/economy/util/I18n.java:79-83 | In a message built from brace-free text around a placeholder's token, every occurrence of the token is replaced by the value. |
| I18n.TranslateLoaded | src/main/java/dev/cwhead/GravesX/modules/economy/util/I18n.java:71-77 | After loading, a key that the asked locale's last file holds translates to that file's text. |
| I18n.TranslateMissing | src/main/java/dev/cwhead/GravesX/modules/economy/util/I18n.java:72-77 | A key that neither the asked locale nor the default language holds comes back unchanged, whatever other languages hold. |
| Text.ReplaceJoin | src/main/java/dev/cwhead/GravesX/modules/economy/util/I18n.java:81 | Replacing a pattern in pieces joined by it, where no piece contains the pattern's first character, joins the pieces with the replacement. |
| Text.TrimPadded | src/main/java/dev/cwhead/GravesX/modules/economy/integration/EconomyPlaceholders.java:54 | `trim` removes exactly the blanks around a text that starts and ends with a non-blank. |
| Reload.OnCommand | src/main/java/dev/cwhead/GravesX/modules/economy/command/EconReloadCommand.java:67-91 | Always handled, with exactly one message. The permission is checked first: without it, only the denial. Then anything but the one argument `reload` (any case) gets only the usage. Only a permitted, valid command reloads. It publishes a `ChargeConfig` of the reloaded configuration, or reports a missing runtime. |
| Reload.ReloadIdempotent | src/main/java/dev/cwhead/GravesX/modules/economy/command/EconReloadCommand.java:81-87 | Running the same command twice from the same configuration leaves the runtime as one run does. |
| Reload.ReloadPublishes | src/main/java/dev/cwhead/GravesX/modules/economy/command/EconReloadCommand.java:81-87 | After a reload, the rounding and the enabled flags the listeners see are the reloaded configuration's. |
| Reload.CopyPartialMatches | src/main/java/dev/cwhead/GravesX/modules/economy/command/EconReloadTab.java:38 | Keeps exactly the candidates that start with the token ignoring case, and nothing else. |
| Reload.PartialMatchesConcat | src/main/java/dev/cwhead/GravesX/modules/economy/command/EconReloadTab.java:38 | The matches of two lists one after the other are the first list's matches followed by the second's, so the originals' order and duplicates are kept. |
| Reload.PartialMatchesOne | src/main/java/dev/cwhead/GravesX/modules/economy/command/EconReloadTab.java:38 | A single candidate is kept, once, exactly when the token is a prefix of it ignoring case. |
| Reload.OnTabComplete | src/main/java/dev/cwhead/GravesX/modules/economy/command/EconReloadTab.java:32-42 | No completion unless there is exactly one argument. Only `reload` is ever offered, and it is offered exactly when the argument is a case-insensitive prefix of it. |
| Reload.CompletionAccepted | src/main/java/dev/cwhead/GravesX/modules/economy/command/EconReloadTab.java:36-39 | Every completion offered, typed as the one argument by a permitted sender, is a command that reloads. |
| Reload.PrefixCompletes | src/main/java/dev/cwhead/GravesX/modules/economy/command/EconReloadTab.java:36-39 | Any prefix of `reload`, in any case and including the full word, completes to exactly `reload`. |
| Reload.NonPrefixIgnored | src/main/java/dev/cwhead/GravesX/modules/economy/command/EconReloadTab.java:36-39 | Any other single argument gets no completion. |

## Left out

- Binary `double` arithmetic. Amounts, balances and percentages are exact decimals. The rounding differences between `new BigDecimal(double)` in `fmt` and `round` and `BigDecimal.valueOf` in the placeholder expansion are not modelled. Neither are NaN (an absent number is `None`) and infinities.
- `Double.toString` output. A configured double is printed by `getString` and `String.valueOf` in plain notation here, not in scientific notation. It is also printed at the scale it was stored with (`Config.ValueOf` gives `5.00` for 5.00), where `Double.toString` prints the shortest form (`5.0`).
- `round(v, places)` converts back to `double` (`doubleValue()`). The model keeps the exact rounded decimal.
- Non-ASCII case mapping and locale-sensitive `toLowerCase()`, for example Turkish dotted I. Only ASCII letters change case.
- Java `int` width. `getInt` truncation and `round-to-decimals` are unbounded integers.
- Charges.ComputeCost: has no player argument, because `computeCost` never reads its player.
- `toString` of a configuration section read by `getString`. A section yields the default there.
- Bukkit's configuration defaults (`addDefault`), and keys that contain a dot. Flattening is proved for files whose keys are non-empty, dot-free and distinct per section (`I18n.WellFormed`).
- `sendMsg` colour translation and MiniMessage conversion, which are foreign library calls. Only "an empty message sends nothing" is modelled. A null message from the hooks is not modelled: they return strings.
- A null player in `onOpen` and `onBlockBreak`, which the source passes on unchecked.
- `EventPriority.HIGHEST`: the order among listeners of the same event. Only its effect on this listener is modelled: an event cancelled before it runs is not handled (`Listener.Handle`).
- I18n file I/O: `mkdirs`, `listFiles`, YAML parsing and `saveDefaultLanguage`. The folder listing is a parameter, each file already parsed. Files are filtered by their `.yml` suffix as the listing filter does.
- I18n.Translate: placeholders are applied in the order given, not in `HashMap` iteration order. A null placeholder value, which throws in `String.replace`, is not modelled.
- The order of the language files. `listFiles` returns them in an order the platform does not specify. The model takes the listing order as given, and for a locale key the last listed file carrying it wins (`I18n.PutLanguagesAt`).
- `volatile` publication in `EconomyRuntime`. The holder is modelled sequentially. Storing a null configuration is not modelled.
- `EconReloadCommand.getDescription`, `getName` and `getUsage` appear only as constants. `reloadConfig()` is a flag in the outcome, and the configuration it reads is a parameter.
- `EconomyPlaceholders.getIdentifier`, `getAuthor`, `getVersion`, `persist` and `canRegister`: registration metadata.
- `VaultEconomyModule` and `VaultEconomyBootstrapListener`: lifecycle wiring, Vault and PlaceholderAPI hook-up.
- The Vault `Economy` itself. The balance and the withdrawal's response are inputs (`Listener.Ledger`).

=== FILE: charges.dfy ===
/**
 * `ChargeConfig`: the per-action charge settings read from the module's configuration,
 * the cost of an action, and the formatting of an amount for messages.
 */
module Charges {
  import opened Wrappers
  import opened Text
  import opened Decimals
  import opened Config

  /** `ChargeConfig.Type`: the four grave actions that can be charged for. */
  datatype ChargeType = Teleport | Open | AutoLoot | BlockBreak

  /** `Type.name()`. */
  function TypeName(t: ChargeType): string {
    match t
    case Teleport => "TELEPORT"
    case Open => "OPEN"
    case AutoLoot => "AUTOLOOT"
    case BlockBreak => "BLOCK_BREAK"
  }

  /** `ChargeConfig.Mode`: a fixed price, or a share of the player's balance. */
  datatype Mode = Fixed | PercentBalance

  /** `Mode.name()`. */
  function ModeName(m: Mode): string {
    match m
    case Fixed => "FIXED"
    case PercentBalance => "PERCENT_BALANCE"
  }

  /** The exception `Mode.valueOf` throws for a name that is no constant. */
  datatype ConfigError = UnknownMode(name: string)

  /** A charge configuration: a view over one loaded configuration file. */
  datatype ChargeConfig = ChargeConfig(cfg: Node)

  const RoundingKey: string := "economy.round-to-decimals"
  const CurrencyKey: string := "economy.currency-symbol"
  const DefaultRounding: nat := 2
  const DefaultCurrency: string := "$"
  const ModeTail: string := "charge.mode"
  const FixedTail: string := "charge.fixed"
  const PercentTail: string := "charge.percent"

  /** The key of a per-type setting: `types.<TYPE>.<tail>`. */
  function TypePath(t: ChargeType, tail: string): string {
    "types." + TypeName(t) + "." + tail
  }

  /** A type path is walked as `types`, then the type's name, then the tail's own pieces. */
  lemma TypePathPieces(t: ChargeType, tail: string)
    ensures Split(TypePath(t, tail), Separator) == ["types", TypeName(t)] + Split(tail, Separator)
  {
    TypeNameDotFree(t);
    PrefixedPieces(TypeName(t), tail);
  }

  lemma TypeNameDotFree(t: ChargeType)
    ensures Separator !in TypeName(t)
  {
  }

  lemma PrefixedPieces(name: string, tail: string)
    requires Separator !in name
    ensures Split("types." + name + "." + tail, Separator) == ["types", name] + Split(tail, Separator)
  {
    var rest := name + "." + tail;
    assert "types." + name + "." + tail == "types" + [Separator] + rest;
    SplitAfterKey("types", Separator, rest);
    SplitAfterKey(name, Separator, tail);
  }

  /** `isTypeEnabled`: on unless `types.<TYPE>.enabled` is explicitly `false`. */
  function IsTypeEnabled(c: ChargeConfig, t: ChargeType): (r: bool)
    ensures !r <==> ScalarAt(c.cfg, TypePath(t, "enabled")) == Some(Bool(false))
  {
    GetBoolean(c.cfg, TypePath(t, "enabled"), true)
  }

  /** `rounding()`: the configured number of decimal places, at least 0, by default 2. */
  function Rounding(c: ChargeConfig): (r: nat)
    ensures GetNumber(c.cfg, RoundingKey).None? ==> r == DefaultRounding
    ensures r >= GetInt(c.cfg, RoundingKey, DefaultRounding)
    ensures r == 0 || r == GetInt(c.cfg, RoundingKey, DefaultRounding)
  {
    var k := GetInt(c.cfg, RoundingKey, DefaultRounding);
    if k < 0 then 0 else k
  }

  /** `currency()`: the configured symbol, `$` when there is none. */
  function Currency(c: ChargeConfig): (r: string)
    ensures Get(c.cfg, CurrencyKey).None? ==> r == DefaultCurrency
  {
    GetString(c.cfg, CurrencyKey, DefaultCurrency)
  }

  /** `Mode.valueOf(s.toUpperCase(Locale.ROOT))`. */
  function ParseMode(s: string): (r: Result<Mode, ConfigError>)
    ensures r == Ok(Fixed) <==> ToUpper(s) == "FIXED"
    ensures r == Ok(PercentBalance) <==> ToUpper(s) == "PERCENT_BALANCE"
    ensures r.Err? ==> r.error == UnknownMode(ToUpper(s))
  {
    var name := ToUpper(s);
    if name == ModeName(Fixed) then Ok(Fixed)
    else if name == ModeName(PercentBalance) then Ok(PercentBalance)
    else Err(UnknownMode(name))
  }

  /** The mode setting of a type as written, `FIXED` when there is none. */
  function ModeSetting(c: ChargeConfig, t: ChargeType): string {
    GetString(c.cfg, TypePath(t, ModeTail), ModeName(Fixed))
  }

  /** `balance * (pct / 100)`, exactly. */
  function PercentOf(balance: Decimal, pct: Decimal): (r: Decimal)
    ensures Same(Mul(r, Decimal(100, 0)), Mul(balance, pct))
  {
    var s := balance.scale + pct.scale;
    Pow10Add(s, 2);
    Decimal(balance.unscaled * pct.unscaled, s + 2)
  }

  /**
   * `computeCost`: by mode, the fixed price or the given share of `balance`, and never
   * below zero. An unknown mode name is the error `Mode.valueOf` raises.
   */
  function ComputeCost(c: ChargeConfig, t: ChargeType, balance: Decimal): (r: Result<Decimal, ConfigError>)
    ensures r.Ok? <==> ParseMode(ModeSetting(c, t)).Ok?
    ensures r.Err? ==> r.error == UnknownMode(ToUpper(ModeSetting(c, t)))
    ensures r.Ok? ==> r.value.unscaled >= 0
    ensures ParseMode(ModeSetting(c, t)) == Ok(Fixed) ==>
      var fixed := GetDouble(c.cfg, TypePath(t, FixedTail), Zero);
      r.value == if fixed.unscaled < 0 then Zero else fixed
    ensures ParseMode(ModeSetting(c, t)) == Ok(PercentBalance) ==>
      var pct := GetDouble(c.cfg, TypePath(t, PercentTail), Zero);
      (balance.unscaled * pct.unscaled >= 0 ==> Same(Mul(r.value, Decimal(100, 0)), Mul(balance, pct)))
      && (balance.unscaled * pct.unscaled < 0 ==> r.value == Zero)
  {
    match ParseMode(ModeSetting(c, t))
    case Err(e) => Err(e)
    case Ok(Fixed) => Ok(Max0(GetDouble(c.cfg, TypePath(t, FixedTail), Zero)))
    case Ok(PercentBalance) =>
      Ok(Max0(PercentOf(balance, GetDouble(c.cfg, TypePath(t, PercentTail), Zero))))
  }

  /**
   * `fmt`: rounds HALF_UP to `rounding()` places, strips trailing zeros and prints plainly.
   * The text reads back as a decimal with no trailing fractional zero and at most
   * `rounding()` fractional digits, which, padded back to `rounding()` places, is the
   * HALF_UP rounding of `d`.
   */
  function Fmt(c: ChargeConfig, d: Decimal): (r: string)
    ensures PlainChars(r)
    ensures Parse(r).Some? && var e := Parse(r).value;
      r == Plain(e) && Canonical(e) && e.scale <= Rounding(c)
      && RoundsTo(d, Rounding(c), Pad(e, Rounding(c) - e.scale).unscaled)
  {
    RenderAt(d, Rounding(c));
    Render(d, Rounding(c))
  }

  lemma RenderAt(d: Decimal, places: nat)
    ensures var r := Render(d, places);
      Parse(r).Some? && var e := Parse(r).value;
      r == Plain(e) && Canonical(e) && e.scale <= places && RoundsTo(d, places, Pad(e, places - e.scale).unscaled)
  {
  }

  /* ---------------------------------------------------------------- properties */

  /** An explicit `enabled` setting is what `isTypeEnabled` reports. */
  lemma EnabledReadsBack(n: Node, t: ChargeType, b: bool)
    ensures IsTypeEnabled(ChargeConfig(Set(n, TypePath(t, "enabled"), Bool(b))), t) == b
  {
    GetBooleanSet(n, TypePath(t, "enabled"), b, true);
  }

  /** A configured rounding is used as is, a negative one as 0. */
  lemma RoundingReadsBack(n: Node, k: int)
    ensures Rounding(ChargeConfig(Set(n, RoundingKey, Int(k)))) == if k < 0 then 0 else k
  {
    GetIntSet(n, RoundingKey, k, DefaultRounding);
    RoundingOf(Set(n, RoundingKey, Int(k)), k);
  }

  lemma RoundingOf(n: Node, k: int)
    requires GetInt(n, RoundingKey, DefaultRounding) == k
    ensures Rounding(ChargeConfig(n)) == if k < 0 then 0 else k
  {
  }

  /** A configured symbol is what `currency()` reports. */
  lemma CurrencyReadsBack(n: Node, s: string)
    ensures Currency(ChargeConfig(Set(n, CurrencyKey, Str(s)))) == s
  {
    GetStringSet(n, CurrencyKey, s, DefaultCurrency);
  }

  lemma UpperLowerChar(c: char)
    ensures UpperChar(LowerChar(c)) == UpperChar(c)
  {
  }

  /** Mode names are read without regard to case. */
  lemma ParseModeIgnoresCase(a: string, b: string)
    requires EqualsIgnoreCase(a, b)
    ensures ParseMode(a) == ParseMode(b)
  {
    assert ToUpper(a) == ToUpper(b) by {
      assert |a| == |ToLower(a)| == |ToLower(b)| == |b|;
      forall i | 0 <= i < |a|
        ensures ToUpper(a)[i] == ToUpper(b)[i]
      {
        assert ToLower(a)[i] == ToLower(b)[i];
        UpperLowerChar(a[i]);
        UpperLowerChar(b[i]);
      }
    }
  }

  /** Every mode's name, in any case, parses back to that mode. */
  lemma ParseModeName(m: Mode, s: string)
    requires EqualsIgnoreCase(s, ModeName(m))
    ensures ParseMode(s) == Ok(m)
  {
    ParseModeIgnoresCase(s, ModeName(m));
    var name := ModeName(m);
    assert ToUpper(name) == name by {
      forall i | 0 <= i < |name|
        ensures ToUpper(name)[i] == name[i]
      {
      }
    }
  }

  /** The mode setting is kept apart from the amount setting stored after it. */
  lemma ModeSurvives(n: Node, t: ChargeType, mode: string, amountTail: string, v: Scalar)
    requires amountTail == FixedTail || amountTail == PercentTail
    ensures var m := Set(n, TypePath(t, ModeTail), Str(mode));
      ModeSetting(ChargeConfig(Set(m, TypePath(t, amountTail), v)), t) == mode
  {
    var amount := if amountTail == FixedTail then "fixed" else "percent";
    assert ModeTail == "charge" + [Separator] + "mode";
    assert amountTail == "charge" + [Separator] + amount;
    SettingsApart(t, "charge", amount, "mode");
    GetStringSurvives(n, TypePath(t, ModeTail), mode, TypePath(t, amountTail), v, ModeName(Fixed));
  }

  /** A configured fixed price is charged as is, whatever the balance. */
  lemma FixedCostReadsBack(n: Node, t: ChargeType, mode: string, price: Decimal, balance: Decimal)
    requires EqualsIgnoreCase(mode, ModeName(Fixed)) && price.unscaled >= 0
    ensures ComputeCost(ChargeConfig(Set(Set(n, TypePath(t, ModeTail), Str(mode)),
                                         TypePath(t, FixedTail), Num(price))), t, balance)
            == Ok(price)
  {
    var m := Set(n, TypePath(t, ModeTail), Str(mode));
    ModeSurvives(n, t, mode, FixedTail, Num(price));
    ParseModeName(Fixed, mode);
    GetNumberSet(m, TypePath(t, FixedTail), price);
  }

  /** A configured percentage charges that share of the balance. */
  lemma PercentCostReadsBack(n: Node, t: ChargeType, mode: string, pct: Decimal, balance: Decimal)
    requires EqualsIgnoreCase(mode, ModeName(PercentBalance))
    requires balance.unscaled >= 0 && pct.unscaled >= 0
    ensures var r := ComputeCost(ChargeConfig(Set(Set(n, TypePath(t, ModeTail), Str(mode)),
                                                  TypePath(t, PercentTail), Num(pct))), t, balance);
            r.Ok? && Same(Mul(r.value, Decimal(100, 0)), Mul(balance, pct))
  {
    var m := Set(n, TypePath(t, ModeTail), Str(mode));
    var c := ChargeConfig(Set(m, TypePath(t, PercentTail), Num(pct)));
    ModeSurvives(n, t, mode, PercentTail, Num(pct));
    ParseModeName(PercentBalance, mode);
    assert ParseMode(ModeSetting(c, t)) == Ok(PercentBalance);
    GetNumberSet(m, TypePath(t, PercentTail), pct);
    assert GetDouble(c.cfg, TypePath(t, PercentTail), Zero) == pct;
    assert balance.unscaled * pct.unscaled >= 0;
  }

  /** Two settings `<group>.<a>` and `<group>.<b>` of a type are different settings. */
  lemma SettingsApart(t: ChargeType, group: string, a: string, b: string)
    requires Separator !in group && Separator !in a && Separator !in b && a != b
    ensures Diverge(Split(TypePath(t, group + [Separator] + a), Separator),
                    Split(TypePath(t, group + [Separator] + b), Separator))
  {
    TypePathPieces(t, group + [Separator] + a);
    TypePathPieces(t, group + [Separator] + b);
    TwoPieces(group, a);
    TwoPieces(group, b);
    var p := Split(TypePath(t, group + [Separator] + a), Separator);
    var q := Split(TypePath(t, group + [Separator] + b), Separator);
    assert p[3] == a && q[3] == b;
  }

  /** Formatting an amount that `fmt` already printed prints the same text again. */
  lemma FmtIdempotent(c: ChargeConfig, d: Decimal)
    ensures Fmt(c, Parse(Fmt(c, d)).value) == Fmt(c, d)
  {
    RenderIdempotent(d, Rounding(c));
  }

  /** A whole amount keeps its integer zeros: 100 prints as `100`. */
  lemma FmtWhole(c: ChargeConfig, n: int)
    ensures Fmt(c, Decimal(n, 0)) == IntToString(n)
  {
    RenderWhole(n, Rounding(c));
  }
}

=== FILE: config.dfy ===
/**
 * A Bukkit configuration (`FileConfiguration` / `ConfigurationSection`) as an immutable tree,
 * with the typed getters the economy module calls and `set` as their partner.
 *
 * A section keeps its keys in insertion order, as Bukkit's LinkedHashMap does. A dotted path
 * is cut at every '.', each piece but the last names a sub-section, and the last names the
 * value; a missing key or a non-section on the way yields the caller's default.
 */
module Config {
  import opened Wrappers
  import opened Text
  import opened Decimals

  /** A YAML scalar. Every number is held exactly; `Null` is a key whose value is null. */
  datatype Scalar = Null | Bool(b: bool) | Int(i: int) | Num(d: Decimal) | Str(s: string)

  datatype Node = Leaf(value: Scalar) | List(items: seq<Scalar>) | Section(entries: seq<Entry>)

  datatype Entry = Entry(key: string, node: Node)

  const Separator: char := '.'

  /** The node stored under `key` directly in a section: the first entry with that key. */
  function Child(entries: seq<Entry>, key: string): (r: Option<Node>)
    ensures r.None? <==> forall i :: 0 <= i < |entries| ==> entries[i].key != key
    decreases |entries|
  {
    if |entries| == 0 then None
    else if entries[0].key == key then Some(entries[0].node)
    else Child(entries[1..], key)
  }

  /** Walks `path` from `n`: every piece but the last must name a sub-section. */
  function Lookup(n: Node, path: seq<string>): Option<Node>
    decreases |path|
  {
    if |path| == 0 then Some(n)
    else match n
      case Section(entries) =>
        (match Child(entries, path[0])
         case Some(c) => Lookup(c, path[1..])
         case None => None)
      case _ => None
  }

  /** `MemorySection.get(path)`: the node at a dotted path. */
  function Get(root: Node, path: string): Option<Node> {
    Lookup(root, Split(path, Separator))
  }

  /** The scalar at a dotted path; a null value reads as absent. */
  function ScalarAt(root: Node, path: string): Option<Scalar> {
    match Get(root, path)
    case Some(Leaf(v)) => if v.Null? then None else Some(v)
    case _ => None
  }

  /** `getBoolean(path, def)`: the value when it is a boolean, otherwise `def`. */
  function GetBoolean(root: Node, path: string, def: bool): bool {
    match ScalarAt(root, path)
    case Some(Bool(b)) => b
    case _ => def
  }

  /** `(int) x` on a double: truncation toward zero. */
  function Truncate(d: Decimal): int {
    var q := Abs(d.unscaled) / Pow10(d.scale);
    if d.unscaled < 0 then -q else q
  }

  /** `getInt(path, def)`: any number, truncated; anything else gives `def`. */
  function GetInt(root: Node, path: string, def: int): int {
    match ScalarAt(root, path)
    case Some(Int(i)) => i
    case Some(Num(d)) => Truncate(d)
    case _ => def
  }

  /** The number at a path, if any: `getDouble(path, Double.NaN)` with `None` for NaN. */
  function GetNumber(root: Node, path: string): Option<Decimal> {
    match ScalarAt(root, path)
    case Some(Int(i)) => Some(Decimal(i, 0))
    case Some(Num(d)) => Some(d)
    case _ => None
  }

  /** `getDouble(path, def)`. */
  function GetDouble(root: Node, path: string, def: Decimal): Decimal {
    GetNumber(root, path).GetOr(def)
  }

  /** `String.valueOf` of a scalar. */
  function ValueOf(v: Scalar): string {
    match v
    case Null => "null"
    case Bool(b) => if b then "true" else "false"
    case Int(i) => IntToString(i)
    case Num(d) => Plain(d)
    case Str(s) => s
  }

  function Texts(items: seq<Scalar>): (r: seq<string>)
    ensures |r| == |items|
    ensures forall i :: 0 <= i < |items| ==> r[i] == ValueOf(items[i])
  {
    seq(|items|, i requires 0 <= i < |items| => ValueOf(items[i]))
  }

  /** `getString(path, def)`: `toString` of whatever is stored, `def` when nothing is. */
  function GetString(root: Node, path: string, def: string): string {
    match Get(root, path)
    case Some(Leaf(v)) => if v.Null? then def else ValueOf(v)
    case Some(List(items)) => "[" + Join(Texts(items), ", ") + "]"
    case _ => def
  }

  /** `getConfigurationSection(path)`. */
  function GetSection(root: Node, path: string): Option<seq<Entry>> {
    match Get(root, path)
    case Some(Section(entries)) => Some(entries)
    case _ => None
  }

  /* ---------------------------------------------------------------- set */

  /** Stores `n` under `key`: in place of the first entry with that key, or appended. */
  function Upsert(entries: seq<Entry>, key: string, n: Node): seq<Entry>
    decreases |entries|
  {
    if |entries| == 0 then [Entry(key, n)]
    else if entries[0].key == key then [Entry(key, n)] + entries[1..]
    else [entries[0]] + Upsert(entries[1..], key, n)
  }

  /**
   * `MemorySection.set(path, v)`: creates the sub-sections along `path`, replacing any
   * non-section in the way, and stores `v` at its end.
   */
  function Put(n: Node, path: seq<string>, v: Scalar): (r: Node)
    requires |path| >= 1
    ensures r.Section?
    decreases |path|
  {
    var entries := if n.Section? then n.entries else [];
    if |path| == 1 then Section(Upsert(entries, path[0], Leaf(v)))
    else
      var below := match Child(entries, path[0])
        case Some(Section(c)) => Section(c)
        case _ => Section([]);
      Section(Upsert(entries, path[0], Put(below, path[1..], v)))
  }

  lemma {:induction false} ChildUpsertSame(entries: seq<Entry>, key: string, n: Node)
    ensures Child(Upsert(entries, key, n), key) == Some(n)
    decreases |entries|
  {
    if |entries| > 0 && entries[0].key != key {
      var u := Upsert(entries, key, n);
      assert u[1..] == Upsert(entries[1..], key, n);
      ChildUpsertSame(entries[1..], key, n);
    }
  }

  lemma {:induction false} ChildUpsertOther(entries: seq<Entry>, key: string, n: Node, other: string)
    requires other != key
    ensures Child(Upsert(entries, key, n), other) == Child(entries, other)
    decreases |entries|
  {
    if |entries| > 0 {
      var u := Upsert(entries, key, n);
      if entries[0].key == key {
        assert u[1..] == entries[1..];
      } else if entries[0].key != other {
        assert u[1..] == Upsert(entries[1..], key, n);
        ChildUpsertOther(entries[1..], key, n, other);
      }
    }
  }

  /** What `set` stored at a path is what a lookup of that path finds. */
  lemma {:induction false} LookupPut(n: Node, path: seq<string>, v: Scalar)
    requires |path| >= 1
    ensures Lookup(Put(n, path, v), path) == Some(Leaf(v))
    decreases |path|
  {
    var entries := if n.Section? then n.entries else [];
    if |path| == 1 {
      ChildUpsertSame(entries, path[0], Leaf(v));
    } else {
      var below := match Child(entries, path[0])
        case Some(Section(c)) => Section(c)
        case _ => Section([]);
      ChildUpsertSame(entries, path[0], Put(below, path[1..], v));
      LookupPut(below, path[1..], v);
    }
  }

  /** Two paths that differ at some piece. */
  predicate Diverge(p: seq<string>, q: seq<string>) {
    exists i :: 0 <= i < |p| && i < |q| && p[i] != q[i]
  }

  /** `set` at one path leaves every path that branches off it unchanged. */
  lemma {:induction false} LookupPutOther(n: Node, path: seq<string>, v: Scalar, other: seq<string>)
    requires |path| >= 1 && Diverge(path, other)
    ensures Lookup(Put(n, path, v), other) == Lookup(n, other)
    decreases |path|
  {
    var entries := if n.Section? then n.entries else [];
    if path[0] != other[0] {
      var x := if |path| == 1 then Leaf(v) else
        Put(match Child(entries, path[0]) case Some(Section(c)) => Section(c) case _ => Section([]), path[1..], v);
      ChildUpsertOther(entries, path[0], x, other[0]);
    } else {
      var i :| 0 <= i < |path| && i < |other| && path[i] != other[i];
      assert i >= 1;
      var below := match Child(entries, path[0])
        case Some(Section(c)) => Section(c)
        case _ => Section([]);
      ChildUpsertSame(entries, path[0], Put(below, path[1..], v));
      assert path[1..][i - 1] != other[1..][i - 1];
      LookupPutOther(below, path[1..], v, other[1..]);
    }
  }

  /** `MemorySection.set(path, v)` with a dotted path. */
  function Set(root: Node, path: string, v: Scalar): Node {
    Put(root, Split(path, Separator), v)
  }

  /** `set(path, v)` then `get(path)` reads `v` back. */
  lemma GetSet(root: Node, path: string, v: Scalar)
    ensures Get(Set(root, path, v), path) == Some(Leaf(v))
  {
    LookupPut(root, Split(path, Separator), v);
  }

  /** `set(path, v)` leaves the value at every path that branches off `path` as it was. */
  lemma GetSetOther(root: Node, path: string, v: Scalar, other: string)
    requires Diverge(Split(path, Separator), Split(other, Separator))
    ensures Get(Set(root, path, v), other) == Get(root, other)
  {
    LookupPutOther(root, Split(path, Separator), v, Split(other, Separator));
  }

  /** The typed getters read back what `set` stored, whatever the default. */
  lemma GetBooleanSet(root: Node, path: string, b: bool, def: bool)
    ensures GetBoolean(Set(root, path, Bool(b)), path, def) == b
  {
    GetSet(root, path, Bool(b));
  }

  lemma GetIntSet(root: Node, path: string, i: int, def: int)
    ensures GetInt(Set(root, path, Int(i)), path, def) == i
  {
    GetSet(root, path, Int(i));
  }

  lemma GetNumberSet(root: Node, path: string, d: Decimal)
    ensures GetNumber(Set(root, path, Num(d)), path) == Some(d)
  {
    GetSet(root, path, Num(d));
  }

  lemma GetStringSet(root: Node, path: string, s: string, def: string)
    ensures GetString(Set(root, path, Str(s)), path, def) == s
  {
    GetSet(root, path, Str(s));
  }

  /** `a.b` with dot-free `a` and `b` names the two pieces `a` and `b`. */
  lemma TwoPieces(a: string, b: string)
    requires Separator !in a && Separator !in b
    ensures Split(a + [Separator] + b, Separator) == [a, b]
  {
    SplitAfterKey(a, Separator, b);
    SplitNoSeparator(b, Separator);
  }

  /** Storing under one key of a section leaves a lookup of any other plain key as it was. */
  lemma GetUpsertOther(entries: seq<Entry>, key: string, n: Node, other: string)
    requires Separator !in other && other != key
    ensures Get(Section(Upsert(entries, key, n)), other) == Get(Section(entries), other)
  {
    GetPlainKey(Upsert(entries, key, n), other);
    GetPlainKey(entries, other);
    ChildUpsertOther(entries, key, n, other);
  }

  /** A key without a dot names a direct child. */
  lemma GetPlainKey(entries: seq<Entry>, key: string)
    requires Separator !in key
    ensures Get(Section(entries), key) == Child(entries, key)
  {
    SplitNoSeparator(key, Separator);
    assert [key][1..] == [];
    match Child(entries, key)
    case None =>
    case Some(c) => assert Lookup(c, []) == Some(c);
  }

  /** The typed getters see nothing but the node at their path. */
  lemma GettersFollowGet(a: Node, b: Node, path: string)
    requires Get(a, path) == Get(b, path)
    ensures GetNumber(a, path) == GetNumber(b, path)
    ensures forall def :: GetString(a, path, def) == GetString(b, path, def)
  {
  }

  /** A string stored at one path survives a later `set` at a path that branches off it. */
  lemma GetStringSurvives(root: Node, path: string, s: string, other: string, v: Scalar, def: string)
    requires Diverge(Split(other, Separator), Split(path, Separator))
    ensures GetString(Set(Set(root, path, Str(s)), other, v), path, def) == s
  {
    GetSetOther(Set(root, path, Str(s)), other, v, path);
    GetStringSet(root, path, s, def);
  }

  /** The entries `set` continues into below `key`: the section stored there, or a new empty one. */
  function Below(n: Node, key: string): seq<Entry> {
    var entries := if n.Section? then n.entries else [];
    match Child(entries, key)
    case Some(Section(c)) => c
    case _ => []
  }

  /** After `set` along `key` and then `rest`, the section under `key` is what `set` of `rest` made of it. */
  lemma GetSectionPut(n: Node, key: string, rest: seq<string>, v: Scalar)
    requires Separator !in key && |rest| >= 1
    ensures GetSection(Put(n, [key] + rest, v), key) == Some(Put(Section(Below(n, key)), rest, v).entries)
  {
    var entries := if n.Section? then n.entries else [];
    var below := match Child(entries, key) case Some(Section(c)) => Section(c) case _ => Section([]);
    assert below == Section(Below(n, key));
    assert ([key] + rest)[1..] == rest;
    var x := Put(below, rest, v);
    assert Put(n, [key] + rest, v) == Section(Upsert(entries, key, x));
    GetPlainKey(Upsert(entries, key, x), key);
    ChildUpsertSame(entries, key, x);
  }

  /** `set` of one more piece stores into the section under it, keeping its place among its siblings. */
  lemma PutEntries(entries: seq<Entry>, key: string, rest: seq<string>, v: Scalar)
    requires |rest| >= 1
    ensures Put(Section(entries), [key] + rest, v).entries
      == Upsert(entries, key, Put(Section(Below(Section(entries), key)), rest, v))
  {
    var below := match Child(entries, key) case Some(Section(c)) => Section(c) case _ => Section([]);
    assert below == Section(Below(Section(entries), key));
    assert ([key] + rest)[1..] == rest;
  }

  /** `set` of a single dot-free key stores the value under that key. */
  lemma GetPutLast(n: Node, key: string, v: Scalar)
    requires Separator !in key
    ensures Get(Put(n, [key], v), key) == Some(Leaf(v))
  {
    var entries := if n.Section? then n.entries else [];
    GetPlainKey(Upsert(entries, key, Leaf(v)), key);
    ChildUpsertSame(entries, key, Leaf(v));
  }

  /** `a.b.c.d` with dot-free pieces names the four pieces. */
  lemma FourPieces(a: string, b: string, c: string, d: string)
    requires Separator !in a && Separator !in b && Separator !in c && Separator !in d
    ensures Split(a + [Separator] + (b + [Separator] + (c + [Separator] + d)), Separator) == [a, b, c, d]
  {
    SplitAfterKey(a, Separator, b + [Separator] + (c + [Separator] + d));
    SplitAfterKey(b, Separator, c + [Separator] + d);
    TwoPieces(c, d);
  }

  /** Paths whose first pieces differ are set independently. */
  lemma GetSetApart(root: Node, path: string, v: Scalar, other: string)
    requires |Split(path, Separator)| >= 1 && |Split(other, Separator)| >= 1
    requires Split(path, Separator)[0] != Split(other, Separator)[0]
    ensures Get(Set(root, path, v), other) == Get(root, other)
  {
    GetSetOther(root, path, v, other);
  }
}

=== FILE: decimals.dfy ===
/**
 * Exact decimal arithmetic standing in for the amounts the module computes with
 * `java.math.BigDecimal`: HALF_UP `setScale`, `stripTrailingZeros` and `toPlainString`,
 * together with a reader for plain strings that inverts `toPlainString`.
 */
module Decimals {
  import opened Wrappers
  import opened Text

  function Pow10(n: nat): (r: nat)
    ensures r >= 1
    decreases n
  {
    if n == 0 then 1 else 10 * Pow10(n - 1)
  }

  /** The number `unscaled / 10^scale`: a BigDecimal whose scale is not negative. */
  datatype Decimal = Decimal(unscaled: int, scale: nat)

  const Zero: Decimal := Decimal(0, 0)

  /** `d` written with `n` more fractional zeros: the same number. */
  function Pad(d: Decimal, n: nat): Decimal {
    Decimal(d.unscaled * Pow10(n), d.scale + n)
  }

  lemma {:induction false} Pow10Add(a: nat, b: nat)
    ensures Pow10(a + b) == Pow10(a) * Pow10(b)
    decreases a
  {
    if a > 0 {
      Pow10Add(a - 1, b);
    }
  }

  /** Two decimals denoting the same number, whatever their scales. */
  predicate Same(a: Decimal, b: Decimal) {
    a.unscaled * Pow10(b.scale) == b.unscaled * Pow10(a.scale)
  }

  /** The numeric order of two decimals, compared at a common scale. */
  predicate Less(a: Decimal, b: Decimal) {
    a.unscaled * Pow10(b.scale) < b.unscaled * Pow10(a.scale)
  }

  /** The exact product. */
  function Mul(a: Decimal, b: Decimal): Decimal {
    Decimal(a.unscaled * b.unscaled, a.scale + b.scale)
  }

  /** `Math.max(0.0, d)`. */
  function Max0(d: Decimal): (r: Decimal)
    ensures r.unscaled >= 0
    ensures d.unscaled >= 0 ==> r == d
  {
    if d.unscaled < 0 then Zero else d
  }

  /* ---------------------------------------------------------------- HALF_UP rounding */

  /**
   * `q` is `u / k` rounded to the nearest integer, a tie going away from zero
   * (`RoundingMode.HALF_UP`): the remainder `u - q * k` lies within half of `k`.
   */
  predicate HalfUpQuotient(u: int, k: int, q: int) {
    if u >= 0 then -k <= 2 * (u - q * k) < k else -k < 2 * (u - q * k) <= k
  }

  function DivHalfUp(u: int, k: int): (q: int)
    requires k >= 1
    ensures HalfUpQuotient(u, k, q)
  {
    if u >= 0 then
      var q := (2 * u + k) / (2 * k);
      assert 2 * u + k == 2 * k * q + (2 * u + k) % (2 * k);
      q
    else
      var p := (2 * -u + k) / (2 * k);
      assert 2 * -u + k == 2 * k * p + (2 * -u + k) % (2 * k);
      -p
  }

  /** At most one integer is the HALF_UP quotient, so `HalfUpQuotient` defines the rounding. */
  lemma HalfUpUnique(u: int, k: int, q1: int, q2: int)
    requires k >= 1 && HalfUpQuotient(u, k, q1) && HalfUpQuotient(u, k, q2)
    ensures q1 == q2
  {
    var d := q2 - q1;
    assert q2 * k == q1 * k + d * k;
    MulAtLeast(d, k);
  }

  lemma MulAtLeast(d: int, k: int)
    requires k >= 1
    ensures d >= 1 ==> d * k >= k
    ensures d <= -1 ==> d * k <= -k
  {
    if d >= 1 {
      assert d * k == k + (d - 1) * k;
    } else if d <= -1 {
      assert d * k == -k + (d + 1) * k;
    }
  }

  /**
   * `q * 10^-places` is the HALF_UP rounding of `d` to `places` decimal places
   * (`places` may be negative: rounding to tens, hundreds, ...).
   */
  predicate RoundsTo(d: Decimal, places: int, q: int) {
    if places >= d.scale then q == d.unscaled * Pow10(places - d.scale)
    else HalfUpQuotient(d.unscaled, Pow10(d.scale - places), q)
  }

  lemma DivMod(a: nat, k: nat)
    requires k >= 1
    ensures (a / k) * k + a % k == a && 0 <= a % k < k && a / k >= 0
  {
  }

  /**
   * `d.setScale(places, RoundingMode.HALF_UP)`. A negative `places` yields a BigDecimal of
   * negative scale; it is represented here by the same number at scale 0.
   */
  function SetScale(d: Decimal, places: int): (r: Decimal)
    ensures places >= 0 ==> r.scale == places && RoundsTo(d, places, r.unscaled)
    ensures places < 0 ==> r.scale == 0
                           && exists q :: r.unscaled == q * Pow10(-places) && RoundsTo(d, places, q)
  {
    if places >= d.scale then Pad(d, places - d.scale)
    else
      var q := DivHalfUp(d.unscaled, Pow10(d.scale - places));
      if places >= 0 then Decimal(q, places)
      else
        assert RoundsTo(d, places, q);
        Decimal(q * Pow10(-places), 0)
  }

  /* ---------------------------------------------------------------- stripTrailingZeros */

  /** No trailing fractional zero: the form `stripTrailingZeros` leaves. */
  predicate Canonical(d: Decimal) {
    d.scale == 0 || d.unscaled % 10 != 0
  }

  /**
   * `d.stripTrailingZeros()`, stopping at scale 0: the plain string of a BigDecimal whose
   * integer zeros were moved into a negative scale is the same, so nothing is lost.
   */
  function StripTrailingZeros(d: Decimal): (r: Decimal)
    ensures Canonical(r)
    ensures r.scale <= d.scale && Pad(r, d.scale - r.scale) == d
    decreases d.scale
  {
    if d.scale > 0 && d.unscaled % 10 == 0 then
      var r := StripTrailingZeros(Decimal(d.unscaled / 10, d.scale - 1));
      var n := d.scale - 1 - r.scale;
      assert Pow10(n + 1) == 10 * Pow10(n);
      assert r.unscaled * Pow10(n + 1) == 10 * (r.unscaled * Pow10(n));
      r
    else d
  }

  /** Padding a stripped decimal with zeros and stripping again gives it back. */
  lemma {:induction false} StripPad(e: Decimal, n: nat)
    requires Canonical(e)
    ensures StripTrailingZeros(Pad(e, n)) == e
    decreases n
  {
    if n > 0 {
      var p := Pad(e, n);
      var m := e.unscaled * Pow10(n - 1);
      assert p.unscaled == 10 * m;
      assert p.unscaled / 10 == m;
      assert Decimal(p.unscaled / 10, p.scale - 1) == Pad(e, n - 1);
      StripPad(e, n - 1);
    } else {
      assert Pad(e, 0) == e;
    }
  }

  /* ---------------------------------------------------------------- digits */

  predicate IsDigit(c: char) {
    '0' <= c <= '9'
  }

  predicate IsDigits(s: string) {
    forall i :: 0 <= i < |s| ==> IsDigit(s[i])
  }

  function DigitChar(n: nat): (c: char)
    requires n < 10
    ensures IsDigit(c)
  {
    ('0' as int + n) as char
  }

  function DigitValue(c: char): nat
    requires IsDigit(c)
  {
    c as int - '0' as int
  }

  /** The number a string of decimal digits denotes. */
  function DigitsValue(s: string): nat
    requires IsDigits(s)
    decreases |s|
  {
    if |s| == 0 then 0 else DigitsValue(s[..|s| - 1]) * 10 + DigitValue(s[|s| - 1])
  }

  /** The decimal digits of `n`, without leading zeros (`Long.toString` of a non-negative value). */
  function NatToDigits(n: nat): (r: string)
    ensures |r| >= 1 && IsDigits(r)
    ensures DigitsValue(r) == n
    ensures n > 0 ==> r[0] != '0'
    decreases n
  {
    if n < 10 then [DigitChar(n)]
    else
      var r := NatToDigits(n / 10) + [DigitChar(n % 10)];
      assert r[..|r| - 1] == NatToDigits(n / 10);
      r
  }

  /** The digits of `n` padded with leading zeros to exactly `w` characters. */
  function PadDigits(n: nat, w: nat): (r: string)
    requires n < Pow10(w)
    ensures |r| == w && IsDigits(r)
    ensures DigitsValue(r) == n
    ensures w > 0 ==> DigitValue(r[w - 1]) == n % 10
    decreases w
  {
    if w == 0 then ""
    else
      var r := PadDigits(n / 10, w - 1) + [DigitChar(n % 10)];
      assert r[..|r| - 1] == PadDigits(n / 10, w - 1);
      r
  }

  /** `Integer.toString`. */
  function IntToString(i: int): string {
    if i < 0 then "-" + NatToDigits(-i) else NatToDigits(i)
  }

  /* ---------------------------------------------------------------- toPlainString and its reader */

  function Abs(i: int): nat {
    if i < 0 then -i else i
  }

  /**
   * `toPlainString`: an optional minus sign, the integer digits, and when the scale is
   * positive a point followed by exactly `scale` fractional digits. Never an exponent.
   */
  function Plain(d: Decimal): string {
    var a := Abs(d.unscaled);
    var k := Pow10(d.scale);
    DivMod(a, k);
    var whole := a / k;
    var fraction := a % k;
    Sign(d) + NatToDigits(whole) + Fraction(fraction, d.scale)
  }

  function Sign(d: Decimal): string {
    if d.unscaled < 0 then "-" else ""
  }

  function Fraction(f: nat, scale: nat): string
    requires f < Pow10(scale)
  {
    if scale == 0 then "" else "." + PadDigits(f, scale)
  }

  lemma PlainAlphabet(d: Decimal)
    ensures PlainChars(Plain(d))
  {
    var a := Abs(d.unscaled);
    var k := Pow10(d.scale);
    DivMod(a, k);
    var m := a / k;
    var f := a % k;
    var whole := NatToDigits(m);
    var fraction := Fraction(f, d.scale);
    assert Plain(d) == Sign(d) + whole + fraction;
    assert PlainChars(whole);
    if d.scale > 0 {
      var digits := PadDigits(f, d.scale);
      assert PlainChars(digits);
      PlainCharsConcat(".", digits);
    }
    PlainCharsConcat(Sign(d), whole);
    PlainCharsConcat(Sign(d) + whole, fraction);
  }

  /** A whole number prints as `Integer.toString` would print it. */
  lemma PlainWhole(n: int)
    ensures Plain(Decimal(n, 0)) == IntToString(n)
  {
    DivMod(Abs(n), 1);
    assert Abs(n) / 1 == Abs(n);
    assert Fraction(Abs(n) % 1, 0) == "";
  }

  /** No zero in front of another digit: `0`, `0.5` and `10` qualify, `05` and `00.5` do not. */
  predicate NoLeadingZero(s: string) {
    |s| >= 1 && (s[0] == '0' ==> |s| == 1 || s[1] == '.')
  }

  /**
   * `toPlainString` writes every number one way: a minus sign exactly when the number is
   * negative (never `-0`), and the integer digits without leading zeros.
   */
  lemma PlainCanonicalText(d: Decimal)
    ensures var s := Plain(d);
      |s| >= 1 && (s[0] == '-' <==> d.unscaled < 0)
      && NoLeadingZero(if d.unscaled < 0 then s[1..] else s)
  {
    var a := Abs(d.unscaled);
    var k := Pow10(d.scale);
    DivMod(a, k);
    var m := a / k;
    var f := a % k;
    var whole := NatToDigits(m);
    var body := whole + Fraction(f, d.scale);
    assert Plain(d) == Sign(d) + body;
    if d.unscaled < 0 {
      assert (Sign(d) + body)[1..] == body;
    } else {
      assert Sign(d) + body == body;
      assert IsDigit(body[0]);
    }
    if m == 0 {
      assert whole == "0";
      if d.scale > 0 {
        assert body[1] == '.';
      } else {
        assert body == whole;
      }
    }
  }

  /** Only a sign, a point and digits: no exponent. */
  predicate PlainChars(s: string) {
    forall i :: 0 <= i < |s| ==> s[i] == '-' || s[i] == '.' || IsDigit(s[i])
  }

  lemma PlainCharsConcat(a: string, b: string)
    requires PlainChars(a) && PlainChars(b)
    ensures PlainChars(a + b)
  {
    assert forall i :: |a| <= i < |a + b| ==> (a + b)[i] == b[i - |a|];
  }

  /** Reads `[-]digits[.digits]`; anything else (an exponent, a stray sign) is rejected. */
  function Parse(s: string): Option<Decimal> {
    if |s| > 0 && s[0] == '-' then
      match ParseUnsigned(s[1..])
      case Some(d) => Some(Decimal(-d.unscaled, d.scale))
      case None => None
    else ParseUnsigned(s)
  }

  function ParseUnsigned(s: string): Option<Decimal> {
    match IndexOfChar(s, '.')
    case None =>
      if |s| > 0 && IsDigits(s) then Some(Decimal(DigitsValue(s), 0)) else None
    case Some(i) =>
      var whole := s[..i];
      var fraction := s[i + 1..];
      if |whole| > 0 && |fraction| > 0 && IsDigits(whole) && IsDigits(fraction) then
        Some(Decimal(DigitsValue(whole) * Pow10(|fraction|) + DigitsValue(fraction), |fraction|))
      else None
  }

  lemma ParseUnsignedDigits(m: nat, scale: nat, f: nat)
    requires f < Pow10(scale)
    ensures ParseUnsigned(NatToDigits(m) + Fraction(f, scale)) == Some(Decimal(m * Pow10(scale) + f, scale))
  {
    var whole := NatToDigits(m);
    assert '.' !in whole by {
      forall i | 0 <= i < |whole|
        ensures whole[i] != '.'
      {
        assert IsDigit(whole[i]);
      }
    }
    if scale == 0 {
      assert whole + "" == whole;
      assert IndexOfChar(whole, '.').None?;
    } else {
      var fraction := PadDigits(f, scale);
      IndexOfCharAfter(whole, '.', fraction);
      var s := whole + "." + fraction;
      assert whole + ("." + fraction) == s;
      assert s == whole + ['.'] + fraction;
      assert s[..|whole|] == whole;
      assert s[|whole| + 1..] == fraction;
    }
  }

  /** The digits of `toPlainString` after its sign. */
  function PlainBody(d: Decimal): string {
    var a := Abs(d.unscaled);
    var k := Pow10(d.scale);
    DivMod(a, k);
    NatToDigits(a / k) + Fraction(a % k, d.scale)
  }

  lemma PlainSplit(d: Decimal)
    ensures Plain(d) == Sign(d) + PlainBody(d)
  {
  }

  lemma PlainBodyReads(d: Decimal)
    ensures ParseUnsigned(PlainBody(d)) == Some(Decimal(Abs(d.unscaled), d.scale))
    ensures |PlainBody(d)| > 0 && IsDigit(PlainBody(d)[0])
  {
    var a := Abs(d.unscaled);
    var k := Pow10(d.scale);
    DivMod(a, k);
    ParseUnsignedDigits(a / k, d.scale, a % k);
  }

  /** `toPlainString` loses nothing: reading the plain string back gives the same decimal, scale included. */
  lemma {:induction false} ParsePlain(d: Decimal)
    ensures Parse(Plain(d)) == Some(d)
  {
    var body := PlainBody(d);
    PlainSplit(d);
    PlainBodyReads(d);
    if d.unscaled < 0 {
      ParseNegative(body, Decimal(Abs(d.unscaled), d.scale));
    } else {
      assert Sign(d) + body == body;
      ParseNonNegative(body, Decimal(Abs(d.unscaled), d.scale));
    }
  }

  lemma ParseNegative(body: string, x: Decimal)
    requires ParseUnsigned(body) == Some(x)
    ensures Parse("-" + body) == Some(Decimal(-x.unscaled, x.scale))
  {
    assert ("-" + body)[1..] == body;
  }

  lemma ParseNonNegative(body: string, x: Decimal)
    requires ParseUnsigned(body) == Some(x) && |body| > 0 && body[0] != '-'
    ensures Parse(body) == Some(x)
  {
  }

  /* ---------------------------------------------------------------- rounded rendering */

  /**
   * `d.setScale(places, HALF_UP).stripTrailingZeros().toPlainString()`. The text reads back
   * as a decimal with no trailing fractional zero and no more fractional digits than
   * `places` allows, which is the HALF_UP rounding of `d` to `places` places.
   */
  function Render(d: Decimal, places: int): (r: string)
    ensures PlainChars(r)
    ensures Parse(r).Some? && r == Plain(Parse(r).value)
    ensures var e := Parse(r).value;
      Canonical(e)
      && (places >= 0 ==> e.scale <= places && RoundsTo(d, places, Pad(e, places - e.scale).unscaled))
      && (places < 0 ==> e.scale == 0 && exists q :: e.unscaled == q * Pow10(-places) && RoundsTo(d, places, q))
  {
    var e := StripTrailingZeros(SetScale(d, places));
    PlainAlphabet(e);
    ParsePlain(e);
    Plain(e)
  }

  /** Rendering what was rendered, at the same places, gives the same text. */
  lemma RenderIdempotent(d: Decimal, places: nat)
    ensures Render(Parse(Render(d, places)).value, places) == Render(d, places)
  {
    var e := StripTrailingZeros(SetScale(d, places));
    ParsePlain(e);
    assert Parse(Render(d, places)).value == e;
    assert SetScale(e, places) == Pad(e, places - e.scale);
    StripPad(e, places - e.scale);
  }

  /** A whole number renders with its integer zeros kept: 100 as `100`. */
  lemma RenderWhole(n: int, places: nat)
    ensures Render(Decimal(n, 0), places) == IntToString(n)
  {
    var d := Decimal(n, 0);
    assert SetScale(d, places) == Pad(d, places);
    StripPad(d, places);
    PlainWhole(n);
  }
}

=== FILE: i18n.dfy ===
/**
 * `I18n`: message translations read from YAML language files, flattened to dotted keys,
 * looked up with a locale fallback and filled with `{name}` placeholders.
 *
 * The folder listing is a parameter (`None` when the folder cannot be listed); each file
 * is its name and its parsed top-level section.
 */
module I18n {
  import opened Wrappers
  import opened Text
  import opened Config

  datatype LangFile = LangFile(name: string, content: seq<Entry>)

  /** The default language and, per locale key, the flattened messages of its file. */
  datatype I18n = I18n(defaultLanguage: string, translations: map<string, map<string, string>>)

  const FallbackLanguage := "en_us"
  const Extension := ".yml"

  /* ---------------------------------------------------------------- flattening */

  /** The full key of `key` inside a section whose own full key is `prefix`. */
  function Qualify(prefix: string, key: string): string {
    if prefix == "" then key else prefix + [Separator] + key
  }

  /** The message text a node flattens to: none for a section or a null value. */
  function LeafText(n: Node): Option<string> {
    match n
    case Leaf(v) => if v.Null? then None else Some(ValueOf(v))
    case List(items) => Some(Join(Texts(items), "\n"))
    case Section(_) => None
  }

  /**
   * `flattenSection(prefix, section, out)` from entry `from` on: every section recurses
   * under its full key, every other non-null value is stored under its full key.
   */
  function FlattenFrom(prefix: string, n: Node, from: nat, out: map<string, string>): map<string, string>
    decreases n, if n.Section? && from < |n.entries| then |n.entries| - from else 0
  {
    if !n.Section? || from >= |n.entries| then out
    else
      var e := n.entries[from];
      var full := Qualify(prefix, e.key);
      var next := if e.node.Section? then FlattenFrom(full, e.node, 0, out)
        else match LeafText(e.node)
          case Some(t) => out[full := t]
          case None => out;
      FlattenFrom(prefix, n, from + 1, next)
  }

  /** The flat message map of one language file. */
  function Flatten(root: seq<Entry>): map<string, string> {
    FlattenFrom("", Section(root), 0, map[])
  }

  /** Keys are non-empty, dot-free and distinct within each section, all the way down. */
  predicate WellFormed(n: Node)
    decreases n
  {
    match n
    case Section(es) =>
      (forall i :: 0 <= i < |es| ==> es[i].key != "" && Separator !in es[i].key && WellFormed(es[i].node))
      && (forall i, j :: 0 <= i < j < |es| ==> es[i].key != es[j].key)
    case _ => true
  }

  /** `k` is the full key `base` or a key below it. */
  predicate Under(k: string, base: string) {
    k == base || (|base| < |k| && k[..|base|] == base && k[|base|] == Separator)
  }

  lemma UnderChild(k: string, full: string, key: string)
    requires full != "" && Under(k, Qualify(full, key))
    ensures Under(k, full)
  {
    var q := Qualify(full, key);
    assert q[..|full|] == full && q[|full|] == Separator;
    if k != q {
      assert k[..|q|] == q;
      assert k[..|full|] == q[..|full|];
      assert k[|full|] == q[|full|];
    }
  }

  /** The full keys of two distinct sibling entries have nothing below them in common. */
  lemma SiblingsApart(k: string, prefix: string, a: string, b: string)
    requires a != b && Separator !in a && Separator !in b
    ensures !(Under(k, Qualify(prefix, a)) && Under(k, Qualify(prefix, b)))
  {
    var p := if prefix == "" then "" else prefix + [Separator];
    assert Qualify(prefix, a) == p + a && Qualify(prefix, b) == p + b;
    if |a| <= |b| {
      SameStart(k, p, a, b);
    } else {
      SameStart(k, p, b, a);
    }
  }

  /** A key below both `p + a` and `p + b`, with `a` no longer than `b`, makes `b` start with `a.` or equal it. */
  lemma SameStart(k: string, p: string, a: string, b: string)
    requires |a| <= |b|
    ensures Under(k, p + a) && Under(k, p + b) ==>
      b[..|a|] == a && (|a| == |b| ==> b == a) && (|a| < |b| ==> b[|a|] == Separator)
  {
    if Under(k, p + a) && Under(k, p + b) {
      var A := p + a;
      var B := p + b;
      assert k[..|B|] == B;
      assert k[..|A|] == A;
      assert forall j :: 0 <= j < |a| ==> a[j] == A[|p| + j] == k[|p| + j] == B[|p| + j] == b[j];
      assert b[..|a|] == a;
      if |a| < |b| {
        assert k != A;
        assert b[|a|] == B[|A|] == k[|A|];
      }
    }
  }

  /** Entries whose full keys lie elsewhere leave the value at `k` alone. */
  lemma {:induction false} FlattenFrame(prefix: string, n: Node, from: nat, out: map<string, string>, k: string)
    requires WellFormed(n)
    requires n.Section? ==> forall j :: from <= j < |n.entries| ==> !Under(k, Qualify(prefix, n.entries[j].key))
    ensures var r := FlattenFrom(prefix, n, from, out);
      (k in r <==> k in out) && (k in out ==> r[k] == out[k])
    decreases n, if n.Section? && from < |n.entries| then |n.entries| - from else 0
  {
    if n.Section? && from < |n.entries| {
      var e := n.entries[from];
      var full := Qualify(prefix, e.key);
      var next := if e.node.Section? then FlattenFrom(full, e.node, 0, out)
        else match LeafText(e.node)
          case Some(t) => out[full := t]
          case None => out;
      if e.node.Section? {
        forall j | 0 <= j < |e.node.entries|
          ensures !Under(k, Qualify(full, e.node.entries[j].key))
        {
          if Under(k, Qualify(full, e.node.entries[j].key)) {
            UnderChild(k, full, e.node.entries[j].key);
          }
        }
        FlattenFrame(full, e.node, 0, out, k);
      } else {
        assert Under(full, full);
      }
      FlattenFrame(prefix, n, from + 1, next, k);
    }
  }

  /** The dotted full key of a path, relative to `prefix`, lies below its first piece. */
  lemma QualifyJoin(prefix: string, p: seq<string>)
    requires |p| >= 2 && p[0] != ""
    ensures Qualify(prefix, Join(p, [Separator])) == Qualify(Qualify(prefix, p[0]), Join(p[1..], [Separator]))
  {
    var rest := Join(p[1..], [Separator]);
    var sep: string := [Separator];
    assert Join(p, sep) == p[0] + sep + rest;
    var a := Qualify(prefix, p[0]);
    assert a != "";
    assert Qualify(a, rest) == a + sep + rest;
    if prefix != "" {
      assert a == prefix + sep + p[0];
      assert prefix + sep + (p[0] + sep + rest) == (prefix + sep + p[0]) + sep + rest;
    }
  }

  lemma UnderJoin(prefix: string, p: seq<string>)
    requires |p| >= 1 && p[0] != ""
    ensures Under(Qualify(prefix, Join(p, [Separator])), Qualify(prefix, p[0]))
  {
    if |p| >= 2 {
      QualifyJoin(prefix, p);
      var a := Qualify(prefix, p[0]);
      var rest := Join(p[1..], [Separator]);
      assert Qualify(a, rest) == a + [Separator] + rest;
      assert (a + [Separator] + rest)[..|a|] == a;
    }
  }

  /** `Child` found the node of some entry with that key. */
  lemma ChildIndex(entries: seq<Entry>, key: string) returns (i: nat)
    requires Child(entries, key).Some?
    ensures i < |entries| && entries[i].key == key && entries[i].node == Child(entries, key).value
    decreases |entries|
  {
    if entries[0].key == key {
      i := 0;
    } else {
      var j := ChildIndex(entries[1..], key);
      i := j + 1;
    }
  }

  /**
   * Entry `i` of a well-formed section, at or after `from`, leads along `p[1..]` to a node
   * with text `t`: after flattening from `from`, the path's full key holds `t`.
   */
  lemma {:induction false} FlattenFindsFrom(prefix: string, n: Node, from: nat, out: map<string, string>,
                                            i: nat, p: seq<string>, t: string)
    requires WellFormed(n) && n.Section? && from <= i < |n.entries| && |p| >= 1
    requires n.entries[i].key == p[0]
    requires Lookup(n.entries[i].node, p[1..]).Some? && LeafText(Lookup(n.entries[i].node, p[1..]).value) == Some(t)
    ensures var r := FlattenFrom(prefix, n, from, out);
      Qualify(prefix, Join(p, [Separator])) in r && r[Qualify(prefix, Join(p, [Separator]))] == t
    decreases |p|, |n.entries| - from
  {
    var es := n.entries;
    var e := es[from];
    var full := Qualify(prefix, e.key);
    var target := Qualify(prefix, Join(p, [Separator]));
    var next := if e.node.Section? then FlattenFrom(full, e.node, 0, out)
      else match LeafText(e.node)
        case Some(t') => out[full := t']
        case None => out;
    assert FlattenFrom(prefix, n, from, out) == FlattenFrom(prefix, n, from + 1, next);
    if from < i {
      FlattenFindsFrom(prefix, n, from + 1, next, i, p, t);
    } else {
      if |p| == 1 {
        assert Lookup(e.node, p[1..]) == Some(e.node);
        assert Join(p, [Separator]) == p[0];
        assert next == out[full := t];
      } else {
        assert e.node.Section?;
        var sub := e.node.entries;
        assert Child(sub, p[1]).Some?;
        var i' := ChildIndex(sub, p[1]);
        assert p[1..][1..] == p[2..];
        FlattenFindsFrom(full, e.node, 0, out, i', p[1..], t);
        QualifyJoin(prefix, p);
      }
      UnderJoin(prefix, p);
      forall j | from + 1 <= j < |es|
        ensures !Under(target, Qualify(prefix, es[j].key))
      {
        SiblingsApart(target, prefix, es[from].key, es[j].key);
      }
      FlattenFrame(prefix, n, from + 1, next, target);
    }
  }

  /**
   * Every value a path reaches in a well-formed language file, other than a section or a
   * null, is in the flat map under the path's dotted key: its `String.valueOf`, or for a
   * list the values joined with newlines.
   */
  lemma FlattenFinds(root: seq<Entry>, p: seq<string>, t: string)
    requires WellFormed(Section(root)) && |p| >= 1
    requires Lookup(Section(root), p).Some? && LeafText(Lookup(Section(root), p).value) == Some(t)
    ensures Join(p, [Separator]) in Flatten(root) && Flatten(root)[Join(p, [Separator])] == t
  {
    var i := ChildIndex(root, p[0]);
    FlattenFindsFrom("", Section(root), 0, map[], i, p, t);
  }

  /** The text `get(k)` finds in a language file, as flattening would store it. */
  function TextAt(root: Node, k: string): Option<string> {
    match Get(root, k)
    case Some(x) => LeafText(x)
    case None => None
  }

  /** The key `k` relative to the section whose full key is `prefix`, if it lies below it. */
  function Relative(prefix: string, k: string): (r: Option<string>)
    ensures r.Some? ==> k == Qualify(prefix, r.value)
    ensures forall rest :: k == Qualify(prefix, rest) ==> r == Some(rest)
  {
    if prefix == "" then Some(k)
    else if |prefix| < |k| && k[..|prefix|] == prefix && k[|prefix|] == Separator then
      assert k == prefix + [Separator] + k[|prefix| + 1..];
      Some(k[|prefix| + 1..])
    else None
  }

  /** In a section with distinct keys, each entry is the child its key names. */
  lemma {:induction false} ChildAtDistinct(es: seq<Entry>, i: nat)
    requires i < |es| && forall a, b :: 0 <= a < b < |es| ==> es[a].key != es[b].key
    ensures Child(es, es[i].key) == Some(es[i].node)
    decreases i
  {
    if i > 0 {
      assert es[0].key != es[i].key;
      assert es[1..][i - 1] == es[i];
      ChildAtDistinct(es[1..], i - 1);
    }
  }

  /** A key below an entry of a well-formed section is read through that entry. */
  lemma TextAtChild(n: Node, i: nat, rest: string)
    requires WellFormed(n) && n.Section? && i < |n.entries|
    ensures TextAt(n, n.entries[i].key + [Separator] + rest) == TextAt(n.entries[i].node, rest)
  {
    var e := n.entries[i];
    ChildAtDistinct(n.entries, i);
    SplitAfterKey(e.key, Separator, rest);
    assert ([e.key] + Split(rest, Separator))[1..] == Split(rest, Separator);
  }

  lemma TextAtEntry(n: Node, i: nat)
    requires WellFormed(n) && n.Section? && i < |n.entries|
    ensures TextAt(n, n.entries[i].key) == LeafText(n.entries[i].node)
  {
    var e := n.entries[i];
    ChildAtDistinct(n.entries, i);
    SplitNoSeparator(e.key, Separator);
    assert [e.key][1..] == [];
    assert Lookup(e.node, []) == Some(e.node);
  }

  /** A key below a child section's full key, relative to the parent, goes through the child's key. */
  lemma RelativeStep(prefix: string, key: string, k: string)
    requires key != "" && Relative(Qualify(prefix, key), k).Some?
    ensures Relative(prefix, k) == Some(key + [Separator] + Relative(Qualify(prefix, key), k).value)
  {
    var full := Qualify(prefix, key);
    var rest := Relative(full, k).value;
    var sep: string := [Separator];
    assert k == full + sep + rest;
    if prefix != "" {
      assert prefix + sep + key + sep + rest == prefix + sep + (key + sep + rest);
    }
    assert k == Qualify(prefix, key + sep + rest);
  }

  /**
   * Flattening from entry `from` adds nothing but texts the section holds: every key of the
   * result was already in `out` with the same text, or lies below `prefix` and `get` of
   * its relative key finds that text.
   */
  lemma {:induction false} FlattenSoundFrom(prefix: string, n: Node, from: nat, out: map<string, string>, k: string)
    requires WellFormed(n)
    ensures var r := FlattenFrom(prefix, n, from, out);
      k in r ==>
        (k in out && r[k] == out[k])
        || (Relative(prefix, k).Some? && TextAt(n, Relative(prefix, k).value) == Some(r[k]))
    decreases n, if n.Section? && from < |n.entries| then |n.entries| - from else 0
  {
    if n.Section? && from < |n.entries| {
      var e := n.entries[from];
      var full := Qualify(prefix, e.key);
      var next := if e.node.Section? then FlattenFrom(full, e.node, 0, out)
        else match LeafText(e.node)
          case Some(t) => out[full := t]
          case None => out;
      assert FlattenFrom(prefix, n, from, out) == FlattenFrom(prefix, n, from + 1, next);
      if e.node.Section? {
        FlattenSoundFrom(full, e.node, 0, out, k);
        if Relative(full, k).Some? {
          RelativeStep(prefix, e.key, k);
          TextAtChild(n, from, Relative(full, k).value);
        }
      } else {
        TextAtEntry(n, from);
        assert Relative(prefix, full) == Some(e.key);
      }
      FlattenSoundFrom(prefix, n, from + 1, next, k);
    }
  }

  /**
   * The flat map of a well-formed language file holds exactly the texts `get` finds: a
   * key is present when its dotted path reaches a value or a list, with that text.
   */
  lemma FlattenIsGet(root: seq<Entry>, k: string)
    requires WellFormed(Section(root))
    ensures k in Flatten(root) <==> TextAt(Section(root), k).Some?
    ensures k in Flatten(root) ==> Flatten(root)[k] == TextAt(Section(root), k).value
  {
    FlattenSoundFrom("", Section(root), 0, map[], k);
    var p := Split(k, Separator);
    if TextAt(Section(root), k).Some? {
      FlattenFinds(root, p, TextAt(Section(root), k).value);
    }
  }

  /* ---------------------------------------------------------------- loading */

  /** `f.getName().replace(".yml", "").toLowerCase()`. */
  function LocaleKey(name: string): string {
    ToLower(ReplaceAll(name, Extension, ""))
  }

  /** The locale key of `base.yml`, for a base name without a dot, is the base lowercased. */
  lemma LocaleKeyOf(base: string)
    requires '.' !in base
    ensures LocaleKey(base + Extension) == ToLower(base)
  {
    forall j | 0 <= j < |base|
      ensures !OccursAt(base + Extension + "", Extension, j)
    {
      assert (base + Extension + "")[j] == base[j];
    }
    ReplaceAfterFirst(base, Extension, "", "");
    ReplaceAbsent("", Extension, "");
    assert base + Extension + "" == base + Extension;
    assert base + "" + "" == base;
  }

  /** The files the listing filter keeps. */
  predicate Listed(f: LangFile) {
    EndsWith(f.name, Extension)
  }

  /** The loop over the listing: each kept file's flat map under its locale key, later ones winning. */
  function PutLanguages(files: seq<LangFile>, acc: map<string, map<string, string>>): map<string, map<string, string>>
    decreases |files|
  {
    if |files| == 0 then acc
    else
      var f := files[0];
      var acc' := if Listed(f) then acc[LocaleKey(f.name) := Flatten(f.content)] else acc;
      PutLanguages(files[1..], acc')
  }

  /** `loadLanguages()`: an unlistable folder changes nothing; otherwise the map is rebuilt. */
  function LoadLanguages(i: I18n, listing: Option<seq<LangFile>>): (r: I18n)
    ensures r.defaultLanguage == i.defaultLanguage
    ensures listing.None? ==> r == i
  {
    match listing
    case None => i
    case Some(files) => i.(translations := PutLanguages(files, map[]))
  }

  /** The last kept file with locale key `k` among `files`, if any. */
  function LastWith(files: seq<LangFile>, k: string): (r: Option<nat>)
    ensures r.Some? ==> r.value < |files| && Listed(files[r.value]) && LocaleKey(files[r.value].name) == k
    ensures r.Some? ==> forall j :: r.value < j < |files| ==> !(Listed(files[j]) && LocaleKey(files[j].name) == k)
    ensures r.None? ==> forall j :: 0 <= j < |files| ==> !(Listed(files[j]) && LocaleKey(files[j].name) == k)
    decreases |files|
  {
    if |files| == 0 then None
    else match LastWith(files[1..], k)
      case Some(j) => Some(j + 1)
      case None => if Listed(files[0]) && LocaleKey(files[0].name) == k then Some(0) else None
  }

  lemma {:induction false} PutLanguagesAt(files: seq<LangFile>, acc: map<string, map<string, string>>, k: string)
    ensures var r := PutLanguages(files, acc);
      match LastWith(files, k)
      case Some(j) => k in r && r[k] == Flatten(files[j].content)
      case None => (k in r <==> k in acc) && (k in acc ==> r[k] == acc[k])
    decreases |files|
  {
    if |files| > 0 {
      var f := files[0];
      var acc' := if Listed(f) then acc[LocaleKey(f.name) := Flatten(f.content)] else acc;
      assert PutLanguages(files, acc) == PutLanguages(files[1..], acc');
      PutLanguagesAt(files[1..], acc', k);
      match LastWith(files[1..], k)
      case Some(j) =>
        assert files[1..][j] == files[j + 1];
      case None =>
    }
  }

  /**
   * After a reload from a listing, a locale key has messages exactly when some kept file
   * has that key, and then they are the flattened contents of the last such file; nothing
   * loaded before survives.
   */
  lemma LoadedFrom(i: I18n, files: seq<LangFile>, k: string)
    ensures var r := LoadLanguages(i, Some(files));
      (k in r.translations <==> exists j :: 0 <= j < |files| && Listed(files[j]) && LocaleKey(files[j].name) == k)
      && (k in r.translations ==> r.translations[k] == Flatten(files[LastWith(files, k).value].content))
  {
    PutLanguagesAt(files, map[], k);
  }

  /** `new I18n(plugin, defaultLanguage)`: the default lowercased, then the languages loaded. */
  function NewI18n(defaultLanguage: Option<string>, listing: Option<seq<LangFile>>): (r: I18n)
    ensures r.defaultLanguage == ToLower(defaultLanguage.GetOr(FallbackLanguage))
    ensures ToLower(r.defaultLanguage) == r.defaultLanguage
    ensures listing.None? ==> r.translations == map[]
  {
    var lang := ToLower(defaultLanguage.GetOr(FallbackLanguage));
    LowerIdempotent(defaultLanguage.GetOr(FallbackLanguage));
    LoadLanguages(I18n(lang, map[]), listing)
  }

  /* ---------------------------------------------------------------- translate */

  /** `getTranslation(locale, key)`. */
  function GetTranslation(i: I18n, locale: string, key: string): Option<string> {
    if locale in i.translations && key in i.translations[locale]
    then Some(i.translations[locale][key]) else None
  }

  /** The locale asked for: the default for none or the empty string, else lowercased. */
  function EffectiveLocale(i: I18n, locale: Option<string>): string {
    if locale.None? || locale.value == "" then i.defaultLanguage else ToLower(locale.value)
  }

  /** `"{" + name + "}"`. */
  function Token(name: string): (r: string)
    ensures |r| == |name| + 2 && r[0] == '{' && r[1..|r| - 1] == name && r[|r| - 1] == '}'
  {
    "{" + name + "}"
  }

  /** Replaces each placeholder's token by its value, in turn. */
  function Fill(msg: string, placeholders: seq<(string, string)>): string
    decreases |placeholders|
  {
    if |placeholders| == 0 then msg
    else Fill(ReplaceAll(msg, Token(placeholders[0].0), placeholders[0].1), placeholders[1..])
  }

  /**
   * `translate(key, placeholders, locale)`: the message in the asked locale, else in the
   * default language, filled with the placeholders; with neither, the key itself, unfilled.
   */
  function Translate(i: I18n, key: string, placeholders: Option<seq<(string, string)>>, locale: Option<string>): string {
    var lc := EffectiveLocale(i, locale);
    var msg := match GetTranslation(i, lc, key)
      case Some(m) => Some(m)
      case None => GetTranslation(i, i.defaultLanguage, key);
    match msg
    case None => key
    case Some(m) => if placeholders.None? then m else Fill(m, placeholders.value)
  }

  /** A message without any '{' comes back as it is, whatever the placeholders. */
  lemma {:induction false} FillNoBraces(msg: string, placeholders: seq<(string, string)>)
    requires '{' !in msg
    ensures Fill(msg, placeholders) == msg
    decreases |placeholders|
  {
    if |placeholders| > 0 {
      var tok := Token(placeholders[0].0);
      NoOccurrenceWithout(msg, tok);
      ReplaceAbsent(msg, tok, placeholders[0].1);
      FillNoBraces(msg, placeholders[1..]);
    }
  }

  /**
   * A message built from brace-free pieces around one placeholder's token, filled with
   * that placeholder alone, has every token replaced by the value.
   */
  lemma FillTemplate(pieces: seq<string>, name: string, value: string)
    requires |pieces| >= 1
    requires forall j :: 0 <= j < |pieces| ==> '{' !in pieces[j]
    ensures Fill(Join(pieces, Token(name)), [(name, value)]) == Join(pieces, value)
  {
    ReplaceJoin(pieces, Token(name), value);
    assert [(name, value)][1..] == [];
  }

  /**
   * After loading, a key the asked locale's last file holds translates, without
   * placeholders, to that file's text.
   */
  lemma TranslateLoaded(i: I18n, files: seq<LangFile>, key: string, locale: string)
    requires locale != ""
    requires LastWith(files, ToLower(locale)).Some?
    requires WellFormed(Section(files[LastWith(files, ToLower(locale)).value].content))
    requires TextAt(Section(files[LastWith(files, ToLower(locale)).value].content), key).Some?
    ensures Translate(LoadLanguages(i, Some(files)), key, None, Some(locale))
      == TextAt(Section(files[LastWith(files, ToLower(locale)).value].content), key).value
  {
    var lc := ToLower(locale);
    LoadedFrom(i, files, lc);
    FlattenIsGet(files[LastWith(files, lc).value].content, key);
  }

  /** A key that neither the asked locale nor the default holds comes back as it is, placeholders or not. */
  lemma TranslateMissing(i: I18n, key: string, placeholders: Option<seq<(string, string)>>, locale: Option<string>)
    requires GetTranslation(i, EffectiveLocale(i, locale), key).None?
    requires GetTranslation(i, i.defaultLanguage, key).None?
    ensures Translate(i, key, placeholders, locale) == key
  {
  }

  /** A message with the placeholders applied, when there are any. */
  function Filled(msg: string, placeholders: Option<seq<(string, string)>>): string {
    if placeholders.None? then msg else Fill(msg, placeholders.value)
  }

  /** A key the asked locale holds is answered from that locale, filled. */
  lemma TranslateAsked(i: I18n, key: string, placeholders: Option<seq<(string, string)>>, locale: string)
    requires locale != "" && ToLower(locale) in i.translations && key in i.translations[ToLower(locale)]
    ensures Translate(i, key, placeholders, Some(locale)) == Filled(i.translations[ToLower(locale)][key], placeholders)
  {
  }

  /** A key the asked locale lacks is answered from the default language, when that holds it. */
  lemma TranslateFallsBack(i: I18n, key: string, placeholders: Option<seq<(string, string)>>, locale: Option<string>)
    requires var lc := EffectiveLocale(i, locale); !(lc in i.translations && key in i.translations[lc])
    requires i.defaultLanguage in i.translations && key in i.translations[i.defaultLanguage]
    ensures Translate(i, key, placeholders, locale) == Filled(i.translations[i.defaultLanguage][key], placeholders)
  {
  }

  /** Locales are compared without regard to case. */
  lemma TranslateLocaleCase(i: I18n, key: string, placeholders: Option<seq<(string, string)>>, a: string, b: string)
    requires EqualsIgnoreCase(a, b)
    ensures Translate(i, key, placeholders, Some(a)) == Translate(i, key, placeholders, Some(b))
  {
    assert |a| == |ToLower(a)| == |ToLower(b)| == |b|;
  }

  /** No locale, the empty locale and the default language itself all translate alike. */
  lemma TranslateDefaultLocale(i: I18n, key: string, placeholders: Option<seq<(string, string)>>)
    requires ToLower(i.defaultLanguage) == i.defaultLanguage
    ensures Translate(i, key, placeholders, None) == Translate(i, key, placeholders, Some(""))
    ensures Translate(i, key, placeholders, None) == Translate(i, key, placeholders, Some(i.defaultLanguage))
  {
  }

  /**
   * Two spellings of the default language that differ only in case build the same
   * translator, so every later translation agrees.
   */
  lemma NewI18nIgnoresCase(a: string, b: string, listing: Option<seq<LangFile>>)
    requires EqualsIgnoreCase(a, b)
    ensures NewI18n(Some(a), listing) == NewI18n(Some(b), listing)
  {
  }

  /**
   * A translator built over a listing answers, in its default language, each key of the
   * last file carrying the default's locale key with that file's text.
   */
  lemma NewI18nTranslates(language: string, files: seq<LangFile>, key: string)
    requires language != "" && LastWith(files, ToLower(language)).Some?
    requires WellFormed(Section(files[LastWith(files, ToLower(language)).value].content))
    requires TextAt(Section(files[LastWith(files, ToLower(language)).value].content), key).Some?
    ensures Translate(NewI18n(Some(language), Some(files)), key, None, None)
      == TextAt(Section(files[LastWith(files, ToLower(language)).value].content), key).value
  {
    var lang := ToLower(language);
    LowerIdempotent(language);
    assert |lang| == |language|;
    var i := NewI18n(Some(language), Some(files));
    TranslateLoaded(I18n(lang, map[]), files, key, lang);
    TranslateDefaultLocale(i, key, None);
  }
}

=== FILE: listener.dfy ===
/**
 * `VaultEconomyListener`: the decision whether a grave action may go ahead, charging the
 * player through the economy when it costs something, and the four event handlers that
 * cancel their event when the decision says so.
 *
 * The economy is an oracle: one decision sees the player's balance and the answer a
 * withdrawal would get. What the decision does to the outside world is the sequence of
 * its effects, in order.
 */
module Listener {
  import opened Wrappers
  import opened Decimals
  import opened Config
  import opened Charges
  import Runtime

  /** What `withdrawPlayer` answers: `null`, or a response that did or did not go through. */
  datatype Response = NoResponse | Response(transactionSuccess: bool)

  /** The economy as one decision sees it. */
  datatype Ledger = Ledger(balance: Decimal, withdrawal: Response)

  /** The player asking: only their permissions matter here. */
  datatype Player = Player(hasPermission: string -> bool)

  /**
   * The four members the listener calls on a charge configuration that are not part of
   * this model's `ChargeConfig`: given as functions of the configuration.
   */
  datatype Hooks = Hooks(
    requirePermission: (ChargeConfig, ChargeType) -> bool,
    permissionNode: (ChargeConfig, ChargeType) -> string,
    msgInsufficient: (ChargeConfig, Decimal, string) -> string,
    msgCharged: (ChargeConfig, Decimal, string) -> string)

  datatype Effect =
    | BalanceQueried
    | Withdraw(amount: Decimal)
    | Sent(text: string)

  /** The action goes ahead, is cancelled, or the decision ended in an exception. */
  datatype Verdict = Proceed | Cancel | Raised(error: ConfigError)

  datatype Charge = Charge(verdict: Verdict, effects: seq<Effect>)

  /**
   * `round(v, places)`: HALF_UP to `places` decimals; a negative `places` leaves `v` alone.
   */
  function RoundCost(v: Decimal, places: int): (r: Decimal)
    ensures places < 0 ==> r == v
    ensures places >= 0 ==> r.scale == places && RoundsTo(v, places, r.unscaled)
  {
    if places < 0 then v else SetScale(v, places)
  }

  /** `sendMsg`: a null or empty message sends nothing. */
  function Send(text: string): (r: seq<Effect>)
    ensures r == [] <==> text == ""
    ensures |r| <= 1 && forall i :: 0 <= i < |r| ==> r[i] == Sent(text)
  {
    if text == "" then [] else [Sent(text)]
  }

  /** No permission is required of the player for this type, or they have it. */
  predicate Subject(cfg: ChargeConfig, hooks: Hooks, p: Player, t: ChargeType) {
    !(hooks.requirePermission(cfg, t) && !p.hasPermission(hooks.permissionNode(cfg, t)))
  }

  /** The cost a decision charges: the configured cost rounded to `rounding()` places. */
  function DecisionCost(cfg: ChargeConfig, t: ChargeType, balance: Decimal): Result<Decimal, ConfigError> {
    match ComputeCost(cfg, t, balance)
    case Ok(raw) => Ok(RoundCost(raw, Rounding(cfg)))
    case Err(e) => Err(e)
  }

  function Succeeded(w: Response): bool {
    w.Response? && w.transactionSuccess
  }

  /** How many withdrawals a run of effects attempts. */
  function Withdrawals(effects: seq<Effect>): nat
    decreases |effects|
  {
    if |effects| == 0 then 0
    else (if effects[0].Withdraw? then 1 else 0) + Withdrawals(effects[1..])
  }

  /** The withdrawals a run of effects attempts, all of them for `cost`. */
  predicate OnlyWithdraws(effects: seq<Effect>, cost: Decimal) {
    forall i :: 0 <= i < |effects| && effects[i].Withdraw? ==> effects[i].amount == cost
  }

  /**
   * The part of `chargeOrCancel` after the balance is read and the cost is known: a cost
   * of zero or less cancels, a balance below the cost cancels with the "insufficient"
   * message, and otherwise one withdrawal of exactly the cost is attempted.
   */
  function Settle(cfg: ChargeConfig, hooks: Hooks, ledger: Ledger, cost: Decimal, action: string): (r: Charge)
    ensures |r.effects| >= 1 && r.effects[0] == BalanceQueried
    ensures !r.verdict.Raised?
    ensures Withdrawals(r.effects) <= 1
    ensures Withdrawals(r.effects) == 1 ==> cost.unscaled > 0 && !Less(ledger.balance, cost)
    ensures OnlyWithdraws(r.effects, cost)
    ensures r.verdict == Proceed <==> Withdrawals(r.effects) == 1 && Succeeded(ledger.withdrawal)
    ensures cost.unscaled <= 0 ==> r == Charge(Cancel, [BalanceQueried])
    ensures cost.unscaled > 0 && Less(ledger.balance, cost) ==>
      r == Charge(Cancel, [BalanceQueried] + Send(hooks.msgInsufficient(cfg, cost, action)))
    ensures cost.unscaled > 0 && !Less(ledger.balance, cost) ==>
      r.effects == [BalanceQueried, Withdraw(cost)]
                   + Send(if Succeeded(ledger.withdrawal) then hooks.msgCharged(cfg, cost, action)
                          else hooks.msgInsufficient(cfg, cost, action))
  {
    if cost.unscaled <= 0 then Charge(Cancel, [BalanceQueried])
    else if Less(ledger.balance, cost) then
      var msg := Send(hooks.msgInsufficient(cfg, cost, action));
      WithdrawalsConcat([BalanceQueried], msg);
      Charge(Cancel, [BalanceQueried] + msg)
    else
      var attempted := [BalanceQueried, Withdraw(cost)];
      assert attempted[1..][1..] == [];
      assert Withdrawals(attempted) == 1;
      var msg := if Succeeded(ledger.withdrawal) then Send(hooks.msgCharged(cfg, cost, action))
                 else Send(hooks.msgInsufficient(cfg, cost, action));
      WithdrawalsConcat(attempted, msg);
      Charge(if Succeeded(ledger.withdrawal) then Proceed else Cancel, attempted + msg)
  }

  /**
   * `chargeOrCancel`. A disabled type, or a player the permission rule exempts, goes
   * ahead untouched. Otherwise the balance is read and the rounded cost computed, and the
   * decision is `Settle`'s; an unknown mode name ends the decision in an exception.
   */
  function ChargeOrCancel(rt: Runtime.EconomyRuntime, hooks: Hooks, p: Player, ledger: Ledger,
                          t: ChargeType, action: string): (r: Charge)
    ensures var cfg := Runtime.Get(rt);
      !IsTypeEnabled(cfg, t) || !Subject(cfg, hooks, p, t) <==> r.effects == []
    ensures r.effects == [] ==> r.verdict == Proceed
    ensures r.effects != [] ==> r.effects[0] == BalanceQueried
    ensures Withdrawals(r.effects) <= 1
    ensures r.verdict.Raised? <==> r.effects != [] && DecisionCost(Runtime.Get(rt), t, ledger.balance).Err?
    ensures r.verdict.Raised? ==> r.effects == [BalanceQueried]
    ensures Withdrawals(r.effects) == 1 ==>
      var cost := DecisionCost(Runtime.Get(rt), t, ledger.balance);
      cost.Ok? && OnlyWithdraws(r.effects, cost.value)
      && cost.value.unscaled > 0 && !Less(ledger.balance, cost.value)
    ensures r.verdict == Proceed && r.effects != [] <==>
      Withdrawals(r.effects) == 1 && Succeeded(ledger.withdrawal)
    ensures r.effects != [] && !r.verdict.Raised? ==>
      var cfg := Runtime.Get(rt);
      r == Settle(cfg, hooks, ledger, DecisionCost(cfg, t, ledger.balance).value, action)
  {
    var cfg := Runtime.Get(rt);
    if !IsTypeEnabled(cfg, t) then Charge(Proceed, [])
    else if !Subject(cfg, hooks, p, t) then Charge(Proceed, [])
    else
      match DecisionCost(cfg, t, ledger.balance)
      case Err(e) => Charge(Raised(e), [BalanceQueried])
      case Ok(cost) => Settle(cfg, hooks, ledger, cost, action)
  }

  lemma {:induction false} WithdrawalsConcat(a: seq<Effect>, b: seq<Effect>)
    requires forall i :: 0 <= i < |b| ==> !b[i].Withdraw?
    ensures Withdrawals(a + b) == Withdrawals(a)
    decreases |a|
  {
    if |a| == 0 {
      WithdrawalsNone(b);
      assert a + b == b;
    } else {
      assert (a + b)[1..] == a[1..] + b;
      WithdrawalsConcat(a[1..], b);
    }
  }

  lemma {:induction false} WithdrawalsNone(b: seq<Effect>)
    requires forall i :: 0 <= i < |b| ==> !b[i].Withdraw?
    ensures Withdrawals(b) == 0
    decreases |b|
  {
    if |b| > 0 {
      WithdrawalsNone(b[1..]);
    }
  }

  /** What the decision takes from the player: the amount of a withdrawal that went through. */
  function Debited(ledger: Ledger, effects: seq<Effect>): (d: Decimal)
    decreases |effects|
  {
    if |effects| == 0 then Zero
    else if effects[0].Withdraw? && Succeeded(ledger.withdrawal) then effects[0].amount
    else Debited(ledger, effects[1..])
  }

  /* ---------------------------------------------------------------- properties */

  /**
   * The player pays only for an action that goes ahead after reaching the economy, and
   * then exactly the rounded cost, which is positive and within their balance.
   */
  lemma PaysOnlyForWhatProceeds(rt: Runtime.EconomyRuntime, hooks: Hooks, p: Player, ledger: Ledger,
                                t: ChargeType, action: string)
    ensures var r := ChargeOrCancel(rt, hooks, p, ledger, t, action);
      var paid := Debited(ledger, r.effects);
      (r.verdict != Proceed || r.effects == [] ==> paid == Zero)
      && (r.verdict == Proceed && r.effects != [] ==>
            DecisionCost(Runtime.Get(rt), t, ledger.balance) == Ok(paid)
            && paid.unscaled > 0 && !Less(ledger.balance, paid))
  {
    var r := ChargeOrCancel(rt, hooks, p, ledger, t, action);
    if r.verdict == Proceed && r.effects != [] {
      DebitedOne(ledger, r.effects, DecisionCost(Runtime.Get(rt), t, ledger.balance).value);
    } else {
      DebitedNone(ledger, r.effects);
    }
  }

  lemma {:induction false} DebitedOne(ledger: Ledger, effects: seq<Effect>, cost: Decimal)
    requires Succeeded(ledger.withdrawal) && Withdrawals(effects) == 1 && OnlyWithdraws(effects, cost)
    ensures Debited(ledger, effects) == cost
    decreases |effects|
  {
    if !effects[0].Withdraw? {
      assert OnlyWithdraws(effects[1..], cost) by {
        forall i | 0 <= i < |effects[1..]| && effects[1..][i].Withdraw?
          ensures effects[1..][i].amount == cost
        {
          assert effects[1..][i] == effects[i + 1];
        }
      }
      DebitedOne(ledger, effects[1..], cost);
    }
  }

  lemma {:induction false} DebitedNone(ledger: Ledger, effects: seq<Effect>)
    requires !Succeeded(ledger.withdrawal) || Withdrawals(effects) == 0
    ensures Debited(ledger, effects) == Zero
    decreases |effects|
  {
    if |effects| > 0 {
      DebitedNone(ledger, effects[1..]);
    }
  }

  /** `round` picks the one HALF_UP rounding there is. */
  lemma RoundCostUnique(v: Decimal, places: nat, q: int)
    requires RoundsTo(v, places, q)
    ensures RoundCost(v, places) == Decimal(q, places)
  {
    var r := RoundCost(v, places);
    if places < v.scale {
      HalfUpUnique(v.unscaled, Pow10(v.scale - places), q, r.unscaled);
    }
  }

  /** A type switched off in the configuration never reaches the economy. */
  lemma DisabledTypeUntouched(n: Node, hooks: Hooks, p: Player, ledger: Ledger, t: ChargeType, action: string)
    ensures var rt := Runtime.New(ChargeConfig(Set(n, TypePath(t, "enabled"), Bool(false))));
      ChargeOrCancel(rt, hooks, p, ledger, t, action) == Charge(Proceed, [])
  {
    EnabledReadsBack(n, t, false);
  }

  /* ---------------------------------------------------------------- event handlers */

  /**
   * The four events, each with the player it concerns: a teleport names a player only when
   * it was made by one, and may still name none; `null` is allowed where the source checks it.
   */
  datatype GraveEvent =
    | PreTeleport(isPlayer: bool, player: Option<Player>)
    | OpenGrave(opener: Player)
    | AutoLootGrave(looter: Option<Player>)
    | BreakGrave(breaker: Player)

  function EventType(e: GraveEvent): ChargeType {
    match e
    case PreTeleport(_, _) => Teleport
    case OpenGrave(_) => Open
    case AutoLootGrave(_) => AutoLoot
    case BreakGrave(_) => BlockBreak
  }

  /** The human-readable action the messages name. */
  function ActionName(e: GraveEvent): string {
    match e
    case PreTeleport(_, _) => "teleport"
    case OpenGrave(_) => "open a grave"
    case AutoLootGrave(_) => "auto-loot"
    case BreakGrave(_) => "break a grave"
  }

  /** The player a handler charges, if any: a teleport not made by a player charges no one. */
  function Payer(e: GraveEvent): Option<Player> {
    match e
    case PreTeleport(isPlayer, p) => if isPlayer then p else None
    case OpenGrave(p) => Some(p)
    case AutoLootGrave(p) => p
    case BreakGrave(p) => Some(p)
  }

  /** A handler's outcome: the decision it made, if any, and whether the event ends up cancelled. */
  datatype Handled = Handled(charge: Option<Charge>, cancelled: bool)

  /**
   * `onPreTeleport`, `onOpen`, `onAutoLoot`, `onBlockBreak`, registered with
   * `ignoreCancelled = true`: an event some other listener already cancelled never reaches
   * them. Otherwise a handler with a player to charge decides, and cancels its event
   * exactly when the decision is to cancel; an exception leaves the event as it was.
   */
  function Handle(rt: Runtime.EconomyRuntime, hooks: Hooks, ledger: Ledger, e: GraveEvent,
                  alreadyCancelled: bool): (h: Handled)
    ensures alreadyCancelled ==> h == Handled(None, true)
    ensures h.charge.Some? <==> !alreadyCancelled && Payer(e).Some?
    ensures h.charge.Some? ==>
      h.charge.value == ChargeOrCancel(rt, hooks, Payer(e).value, ledger, EventType(e), ActionName(e))
    ensures !alreadyCancelled ==> (h.cancelled <==> h.charge.Some? && h.charge.value.verdict == Cancel)
  {
    if alreadyCancelled then Handled(None, true)
    else match Payer(e)
      case None => Handled(None, false)
      case Some(p) =>
        var c := ChargeOrCancel(rt, hooks, p, ledger, EventType(e), ActionName(e));
        Handled(Some(c), c.verdict == Cancel)
  }

  /** What a handled event took from the player. */
  function HandledDebit(ledger: Ledger, h: Handled): Decimal {
    if h.charge.Some? then Debited(ledger, h.charge.value.effects) else Zero
  }

  /**
   * A player never pays for an event that ends up cancelled, and whatever a handler takes
   * is the positive, affordable rounded cost of the event's type, with the event going ahead.
   */
  lemma HandlerPaysOnlyForWhatProceeds(rt: Runtime.EconomyRuntime, hooks: Hooks, ledger: Ledger,
                                       e: GraveEvent, alreadyCancelled: bool)
    ensures var h := Handle(rt, hooks, ledger, e, alreadyCancelled);
      var paid := HandledDebit(ledger, h);
      (h.cancelled ==> paid == Zero)
      && (paid != Zero ==>
            !h.cancelled && DecisionCost(Runtime.Get(rt), EventType(e), ledger.balance) == Ok(paid)
            && paid.unscaled > 0 && !Less(ledger.balance, paid))
  {
    var h := Handle(rt, hooks, ledger, e, alreadyCancelled);
    if h.charge.Some? {
      PaysOnlyForWhatProceeds(rt, hooks, Payer(e).value, ledger, EventType(e), ActionName(e));
    }
  }

  /** A teleport not made by a player, or naming no player, is neither charged nor cancelled by the handler. */
  lemma NonPlayerTeleportIgnored(rt: Runtime.EconomyRuntime, hooks: Hooks, ledger: Ledger,
                                 isPlayer: bool, p: Option<Player>, alreadyCancelled: bool)
    requires !isPlayer || p.None?
    ensures Handle(rt, hooks, ledger, PreTeleport(isPlayer, p), alreadyCancelled) == Handled(None, alreadyCancelled)
  {
  }

  /** An event whose type is switched off is never cancelled by its handler and costs nothing. */
  lemma DisabledEventGoesAhead(n: Node, hooks: Hooks, ledger: Ledger, e: GraveEvent)
    ensures var rt := Runtime.New(ChargeConfig(Set(n, TypePath(EventType(e), "enabled"), Bool(false))));
      var h := Handle(rt, hooks, ledger, e, false);
      !h.cancelled && (h.charge.Some? ==> h.charge.value == Charge(Proceed, []))
  {
    if Payer(e).Some? {
      DisabledTypeUntouched(n, hooks, Payer(e).value, ledger, EventType(e), ActionName(e));
    }
  }
}

=== FILE: placeholders.dfy ===
/**
 * `EconomyPlaceholders`: the PlaceholderAPI expansion answering `currency_symbol`,
 * `<type>_cost` and `<type>_cost_percentage` from the configuration it was created with.
 */
module Placeholders {
  import opened Wrappers
  import opened Text
  import opened Decimals
  import opened Config
  import Charges

  /** What a normalised parameter asks for. */
  datatype Request =
    | CurrencySymbolRequest
    | PercentRequest(typeName: string)
    | CostRequest(typeName: string)
    | NoRequest

  const PercentSuffix: string := "_cost_percentage"
  const CostSuffix: string := "_cost"

  predicate IsCurrencyAlias(s: string) {
    s == "currency_symbol" || s == "currencysymbol" || s == "currency-symbol"
  }

  /**
   * The dispatch of `onRequest` on a lowercased, trimmed parameter: a currency alias, else
   * the percent suffix, else the cost suffix, each with the type written before it.
   */
  function ParseRequest(lower: string): (r: Request)
    ensures r == CurrencySymbolRequest <==> IsCurrencyAlias(lower)
    ensures r.PercentRequest? <==> !IsCurrencyAlias(lower) && EndsWith(lower, PercentSuffix)
    ensures r.PercentRequest? ==> lower == r.typeName + PercentSuffix
    ensures r.CostRequest? <==>
      !IsCurrencyAlias(lower) && !EndsWith(lower, PercentSuffix) && EndsWith(lower, CostSuffix)
    ensures r.CostRequest? ==> lower == r.typeName + CostSuffix
  {
    if IsCurrencyAlias(lower) then CurrencySymbolRequest
    else if EndsWith(lower, PercentSuffix) then
      assert lower == lower[..|lower| - |PercentSuffix|] + PercentSuffix;
      PercentRequest(lower[..|lower| - |PercentSuffix|])
    else if EndsWith(lower, CostSuffix) then
      assert lower == lower[..|lower| - |CostSuffix|] + CostSuffix;
      CostRequest(lower[..|lower| - |CostSuffix|])
    else NoRequest
  }

  /** `onRequest(player, params)`; the player is never looked at. */
  function OnRequest(cfg: Node, params: string): (r: string)
    ensures params == "" ==> r == ""
  {
    if params == "" then ""
    else match ParseRequest(Trim(ToLower(params)))
      case CurrencySymbolRequest => CurrencySymbol(cfg)
      case PercentRequest(t) => PercentText(cfg, t)
      case CostRequest(t) => CostText(cfg, t)
      case NoRequest => ""
  }

  /** The expansion's own settings, `economy.currency-symbol` and `economy.round-to-decimals`. */
  const EconomyKey: string := "economy"
  const SymbolKey: string := EconomyKey + [Separator] + "currency-symbol"
  const DecimalsKey: string := EconomyKey + [Separator] + "round-to-decimals"
  const TypesKey: string := "types"

  /** `getCurrencySymbol`: unlike `ChargeConfig.currency()`, no symbol by default. */
  function CurrencySymbol(cfg: Node): (r: string)
    ensures Get(cfg, SymbolKey).None? ==> r == ""
    ensures ScalarAt(cfg, SymbolKey).Some? ==> r == ValueOf(ScalarAt(cfg, SymbolKey).value)
  {
    GetString(cfg, SymbolKey, "")
  }

  /** The position of the first key equal to `search` ignoring case. */
  function FirstMatch(entries: seq<Entry>, search: string): (r: Option<nat>)
    ensures r.Some? ==> r.value < |entries| && EqualsIgnoreCase(entries[r.value].key, search)
    ensures forall j :: 0 <= j < |entries| && (r.None? || j < r.value) ==>
      !EqualsIgnoreCase(entries[j].key, search)
    decreases |entries|
  {
    if |entries| == 0 then None
    else if EqualsIgnoreCase(entries[0].key, search) then Some(0)
    else match FirstMatch(entries[1..], search)
      case None => None
      case Some(i) => Some(i + 1)
  }

  /**
   * `getTypeSection`: the section under the first key of `types` that equals the type
   * ignoring case; none for an empty type or a configuration without `types`.
   */
  function TypeSection(cfg: Node, typeName: string): (r: Option<seq<Entry>>)
    ensures typeName == "" || GetSection(cfg, TypesKey).None? ==> r.None?
    ensures r.Some? ==>
      var types := GetSection(cfg, TypesKey).value;
      var i := FirstMatch(types, ToLower(typeName));
      i.Some? && GetSection(Section(types), types[i.value].key) == r
  {
    if typeName == "" then None
    else match GetSection(cfg, TypesKey)
      case None => None
      case Some(types) =>
        match FirstMatch(types, ToLower(typeName))
        case None => None
        case Some(i) => GetSection(Section(types), types[i].key)
  }

  /** The `charge` sub-section of a type's section. */
  function ChargeSection(cfg: Node, typeName: string): Option<seq<Entry>> {
    match TypeSection(cfg, typeName)
    case None => None
    case Some(section) => GetSection(Section(section), ChargeKey)
  }

  const FixedKey: string := "fixed"
  const PercentKey: string := "percent"

  /** `charge.getDouble("fixed", NaN)`, with `None` for NaN. */
  function FixedOf(charge: seq<Entry>): Option<Decimal> {
    GetNumber(Section(charge), FixedKey)
  }

  /**
   * The fixed price of a `charge` section, if any, rendered with `round-to-decimals` places
   * (by default 2, and taken as written even when negative) after the currency symbol.
   */
  function CostOfFixed(cfg: Node, fixed: Option<Decimal>): (r: string)
    ensures fixed.None? <==> r == ""
    ensures fixed.Some? ==> r == CurrencySymbol(cfg) + Render(fixed.value, GetInt(cfg, DecimalsKey, 2))
  {
    match fixed
    case None => ""
    case Some(amount) =>
      var symbol := CurrencySymbol(cfg);
      var value := Render(amount, GetInt(cfg, DecimalsKey, 2));
      PlainNonEmpty(Parse(value).value);
      ParsePlain(Parse(value).value);
      if symbol == "" then
        assert value == symbol + value;
        value
      else symbol + value
  }

  lemma PlainNonEmpty(d: Decimal)
    ensures |Plain(d)| >= 1
  {
  }

  /** `getTypeCostFormatted`: empty unless the type has a `charge` section with a fixed price. */
  function CostText(cfg: Node, typeName: string): string {
    match ChargeSection(cfg, typeName)
    case None => ""
    case Some(charge) => CostOfFixed(cfg, FixedOf(charge))
  }

  /** The percentage of a `charge` section, trailing zeros stripped but not rounded, and `%`. */
  function PercentOfCharge(charge: seq<Entry>): (r: string)
    ensures GetNumber(Section(charge), PercentKey).None? <==> r == ""
    ensures r != "" ==>
      var pct := GetNumber(Section(charge), PercentKey).value;
      r[|r| - 1] == '%' && Parse(r[..|r| - 1]).Some?
      && var e := Parse(r[..|r| - 1]).value; Canonical(e) && Same(e, pct) && r[..|r| - 1] == Plain(e)
  {
    match GetNumber(Section(charge), PercentKey)
    case None => ""
    case Some(pct) =>
      var e := StripTrailingZeros(pct);
      ParsePlain(e);
      var r := Plain(e) + "%";
      assert r[..|r| - 1] == Plain(e);
      StrippedSame(pct);
      r
  }

  /** `stripTrailingZeros` keeps the number. */
  lemma StrippedSame(d: Decimal)
    ensures Same(StripTrailingZeros(d), d)
  {
    var e := StripTrailingZeros(d);
    var n := d.scale - e.scale;
    Pow10Add(e.scale, n);
    assert d.unscaled == e.unscaled * Pow10(n);
    assert d.unscaled * Pow10(e.scale) == e.unscaled * (Pow10(n) * Pow10(e.scale));
  }

  /** `getTypePercent`: empty unless the type has a `charge` section with a percentage. */
  function PercentText(cfg: Node, typeName: string): string {
    match ChargeSection(cfg, typeName)
    case None => ""
    case Some(charge) => PercentOfCharge(charge)
  }

  /* ---------------------------------------------------------------- properties */

  /** Any type name followed by `_cost` asks for that type's cost. */
  lemma CostRequestRoundTrip(t: string)
    ensures ParseRequest(t + CostSuffix) == CostRequest(t)
  {
    var s := t + CostSuffix;
    assert s[|s| - |CostSuffix|..] == CostSuffix;
    assert s[..|s| - |CostSuffix|] == t;
    assert s[|s| - 1] == 't';
  }

  /** Any type name followed by `_cost_percentage` asks for that type's percentage. */
  lemma PercentRequestRoundTrip(t: string)
    ensures ParseRequest(t + PercentSuffix) == PercentRequest(t)
  {
    var s := t + PercentSuffix;
    assert s[|s| - |PercentSuffix|..] == PercentSuffix;
    assert s[..|s| - |PercentSuffix|] == t;
    assert s[|s| - 1] == 'e';
  }

  lemma LowerBlank(w: string)
    requires AllBlank(w)
    ensures ToLower(w) == w
  {
  }

  /**
   * Parameters are read without regard to case or surrounding blanks: padding a
   * parameter with blanks and changing the case of its letters changes no answer.
   */
  lemma RequestNormalised(cfg: Node, w1: string, s: string, w2: string)
    requires AllBlank(w1) && AllBlank(w2)
    requires |s| > 0 && !Blank(s[0]) && !Blank(s[|s| - 1])
    ensures OnRequest(cfg, w1 + s + w2) == OnRequest(cfg, ToLower(s))
  {
    ToLowerConcat(w1 + s, w2);
    ToLowerConcat(w1, s);
    LowerBlank(w1);
    LowerBlank(w2);
    var l := ToLower(s);
    assert ToLower(w1 + s + w2) == w1 + l + w2;
    TrimPadded(w1, l, w2);
    LowerIdempotent(s);
    TrimPadded("", l, "");
    assert "" + l + "" == l;
    SameNormalForm(cfg, w1 + s + w2, l);
  }

  /** Two parameters with the same lowercased, trimmed form get the same answer. */
  lemma SameNormalForm(cfg: Node, a: string, b: string)
    requires a != "" && b != "" && Trim(ToLower(a)) == Trim(ToLower(b))
    ensures OnRequest(cfg, a) == OnRequest(cfg, b)
  {
  }

  /**
   * The section found for a type is the one under the first key of `types` matching it
   * ignoring case, whatever the case the type is asked in.
   */
  lemma TypeSectionFinds(cfg: Node, typeName: string, types: seq<Entry>, i: nat, section: seq<Entry>)
    requires typeName != "" && GetSection(cfg, TypesKey) == Some(types)
    requires i < |types| && EqualsIgnoreCase(types[i].key, typeName)
    requires forall j :: 0 <= j < i ==> !EqualsIgnoreCase(types[j].key, typeName)
    requires Separator !in types[i].key && types[i].node == Section(section)
    ensures TypeSection(cfg, typeName) == Some(section)
  {
    LowerIdempotent(typeName);
    var m := FirstMatch(types, ToLower(typeName));
    assert m == Some(i);
    assert forall j :: 0 <= j < i ==> types[j].key != types[i].key;
    GetPlainKey(types, types[i].key);
    ChildAt(types, i);
  }

  /** The first entry under a key is found by it. */
  lemma {:induction false} ChildAt(entries: seq<Entry>, i: nat)
    requires i < |entries|
    requires forall j :: 0 <= j < i ==> entries[j].key != entries[i].key
    ensures Child(entries, entries[i].key) == Some(entries[i].node)
    decreases i
  {
    if i > 0 {
      assert forall j :: 0 <= j < i - 1 ==> entries[1..][j].key != entries[1..][i - 1].key by {
        forall j | 0 <= j < i - 1
          ensures entries[1..][j].key != entries[1..][i - 1].key
        {
          assert entries[1..][j] == entries[j + 1];
        }
      }
      ChildAt(entries[1..], i - 1);
    }
  }

  /** The cost placeholder renders the fixed price whatever mode is set beside it. */
  lemma CostIgnoresMode(cfg: Node, charge: seq<Entry>, mode: Scalar)
    ensures CostOfFixed(cfg, FixedOf(Upsert(charge, "mode", Leaf(mode)))) == CostOfFixed(cfg, FixedOf(charge))
  {
    GetUpsertOther(charge, "mode", Leaf(mode), FixedKey);
    GettersFollowGet(Section(Upsert(charge, "mode", Leaf(mode))), Section(charge), FixedKey);
  }

  /** A parameter already in normal form (lowercase, no surrounding blanks) is left as it is by `toLowerCase(ROOT).trim()`. */
  lemma NormalFormFixed(s: string)
    requires |s| > 0 && ToLower(s) == s && !Blank(s[0]) && !Blank(s[|s| - 1])
    ensures Trim(ToLower(s)) == s
  {
    TrimPadded("", s, "");
    assert "" + s + "" == s;
  }

  /** Each of the three currency aliases, in any case, answers the configured symbol. */
  lemma CurrencyAliasAnswers(cfg: Node, s: string)
    requires IsCurrencyAlias(ToLower(s))
    ensures OnRequest(cfg, s) == CurrencySymbol(cfg)
  {
    var l := ToLower(s);
    AliasEnds(l);
    TrimPadded("", l, "");
    assert "" + l + "" == l;
    DispatchCurrency(cfg, s);
  }

  lemma DispatchCurrency(cfg: Node, s: string)
    requires s != "" && ParseRequest(Trim(ToLower(s))) == CurrencySymbolRequest
    ensures OnRequest(cfg, s) == CurrencySymbol(cfg)
  {
  }

  lemma AliasEnds(l: string)
    requires IsCurrencyAlias(l)
    ensures |l| > 0 && l[0] == 'c' && l[|l| - 1] == 'l'
  {
  }

  /** `<type>_cost`, for a type written in lowercase with no leading blank, answers that type's cost. */
  lemma CostRequestAnswers(cfg: Node, t: string)
    requires ToLower(t) == t && (|t| > 0 ==> !Blank(t[0]))
    ensures OnRequest(cfg, t + CostSuffix) == CostText(cfg, t)
  {
    var s := t + CostSuffix;
    ToLowerConcat(t, CostSuffix);
    assert ToLower(CostSuffix) == CostSuffix;
    assert s[0] == (if |t| > 0 then t[0] else '_');
    assert s[|s| - 1] == 't';
    NormalFormFixed(s);
    CostRequestRoundTrip(t);
  }

  /** `<type>_cost_percentage`, likewise, answers that type's percentage. */
  lemma PercentRequestAnswers(cfg: Node, t: string)
    requires ToLower(t) == t && (|t| > 0 ==> !Blank(t[0]))
    ensures OnRequest(cfg, t + PercentSuffix) == PercentText(cfg, t)
  {
    var s := t + PercentSuffix;
    ToLowerConcat(t, PercentSuffix);
    assert ToLower(PercentSuffix) == PercentSuffix;
    assert s[0] == (if |t| > 0 then t[0] else '_');
    assert s[|s| - 1] == 'e';
    NormalFormFixed(s);
    PercentRequestRoundTrip(t);
  }

  /* ---------------------------------------------------------------- read-backs through set */

  /** A symbol written with `set` is what `getCurrencySymbol` answers. */
  lemma CurrencySymbolReadsBack(n: Node, s: string)
    ensures CurrencySymbol(Set(n, SymbolKey, Str(s))) == s
  {
    GetStringSet(n, SymbolKey, s, "");
  }

  /**
   * The expansion and `ChargeConfig.currency()` read the same key: they agree whenever a
   * symbol is configured, and differ only in the default, `""` against `$`.
   */
  lemma SymbolAgreesWithCurrency(cfg: Node)
    ensures ScalarAt(cfg, SymbolKey).Some? ==> CurrencySymbol(cfg) == Charges.Currency(Charges.ChargeConfig(cfg))
    ensures Get(cfg, SymbolKey).None? ==>
      CurrencySymbol(cfg) == "" && Charges.Currency(Charges.ChargeConfig(cfg)) == Charges.DefaultCurrency
  {
    assert SymbolKey == Charges.CurrencyKey;
  }

  const ChargeKey: string := "charge"

  /** The key of a charge setting of a type as the configuration spells it: `types.<key>.charge.<leaf>`. */
  function ChargePath(key: string, leaf: string): string {
    TypesKey + [Separator] + (key + [Separator] + (ChargeKey + [Separator] + leaf))
  }

  lemma ChargePathPieces(key: string, leaf: string)
    requires Separator !in key && Separator !in leaf
    ensures Split(ChargePath(key, leaf), Separator) == [TypesKey, key, ChargeKey, leaf]
  {
    FourPieces(TypesKey, key, ChargeKey, leaf);
  }

  /** No key of `types` but `key` itself equals `t` ignoring case. */
  predicate OnlySpelling(types: seq<Entry>, key: string, t: string) {
    forall j :: 0 <= j < |types| && EqualsIgnoreCase(types[j].key, t) ==> types[j].key == key
  }

  /** The first case-insensitive match after storing under `key` is `key`, when only `key` can match. */
  lemma {:induction false} FirstMatchUpsert(types: seq<Entry>, key: string, x: Node, s: string)
    requires EqualsIgnoreCase(key, s) && OnlySpelling(types, key, s)
    ensures var u := Upsert(types, key, x);
      FirstMatch(u, s).Some? && u[FirstMatch(u, s).value].key == key
    decreases |types|
  {
    if |types| > 0 && types[0].key != key {
      assert !EqualsIgnoreCase(types[0].key, s);
      assert OnlySpelling(types[1..], key, s) by {
        forall j | 0 <= j < |types[1..]| && EqualsIgnoreCase(types[1..][j].key, s)
          ensures types[1..][j].key == key
        {
          assert types[1..][j] == types[j + 1];
        }
      }
      FirstMatchUpsert(types[1..], key, x, s);
      var u := Upsert(types, key, x);
      assert u[1..] == Upsert(types[1..], key, x);
    }
  }

  /** `OnlySpelling` for a type name is `OnlySpelling` for its lowercase form. */
  lemma OnlySpellingLower(types: seq<Entry>, key: string, t: string)
    requires EqualsIgnoreCase(key, t) && OnlySpelling(types, key, t)
    ensures EqualsIgnoreCase(key, ToLower(t)) && OnlySpelling(types, key, ToLower(t))
  {
    LowerIdempotent(t);
  }

  /** The type section found after storing under `key` in `types` is the one stored. */
  lemma TypeSectionAfterUpsert(cfg: Node, types: seq<Entry>, key: string, t: string, b: Node)
    requires t != "" && Separator !in key && b.Section?
    requires EqualsIgnoreCase(key, t) && OnlySpelling(types, key, t)
    requires GetSection(cfg, TypesKey) == Some(Upsert(types, key, b))
    ensures TypeSection(cfg, t) == Some(b.entries)
  {
    OnlySpellingLower(types, key, t);
    FirstMatchUpsert(types, key, b, ToLower(t));
    GetPlainKey(Upsert(types, key, b), key);
    ChildUpsertSame(types, key, b);
  }

  /**
   * Storing a value at `types.<key>.charge.<leaf>` makes it visible in the `charge` section
   * the expansion finds for any spelling `t` of `key`, provided `key` is the only key of
   * `types` that `t` matches.
   */
  lemma ChargeLeafReadsBack(n: Node, key: string, t: string, leaf: string, v: Scalar)
    requires t != "" && Separator !in key && Separator !in leaf
    requires EqualsIgnoreCase(key, t) && OnlySpelling(Below(n, TypesKey), key, t)
    ensures var cs := ChargeSection(Set(n, ChargePath(key, leaf), v), t);
      cs.Some? && Get(Section(cs.value), leaf) == Some(Leaf(v))
  {
    ChargePathPieces(key, leaf);
    var cfg := Set(n, ChargePath(key, leaf), v);
    var rest := [key, ChargeKey, leaf];
    assert [TypesKey, key, ChargeKey, leaf] == [TypesKey] + rest;
    assert cfg == Put(n, [TypesKey] + rest, v);
    var types := Below(n, TypesKey);
    GetSectionPut(n, TypesKey, rest, v);
    var tail := [ChargeKey, leaf];
    assert rest == [key] + tail;
    var under := Section(Below(Section(types), key));
    var b := Put(under, tail, v);
    PutEntries(types, key, tail, v);
    TypeSectionAfterUpsert(cfg, types, key, t, b);
    assert tail == [ChargeKey] + [leaf];
    GetSectionPut(under, ChargeKey, [leaf], v);
    var c := Put(Section(Below(under, ChargeKey)), [leaf], v);
    assert Section(c.entries) == c;
    GetPutLast(Section(Below(under, ChargeKey)), leaf, v);
  }

  /** A `set` under `types` leaves the two `economy` settings the expansion reads as they were. */
  lemma EconomySettingsKept(n: Node, key: string, leaf: string, v: Scalar)
    requires Separator !in key && Separator !in leaf
    ensures var cfg := Set(n, ChargePath(key, leaf), v);
      CurrencySymbol(cfg) == CurrencySymbol(n) && GetInt(cfg, DecimalsKey, 2) == GetInt(n, DecimalsKey, 2)
  {
    ChargePathPieces(key, leaf);
    EconomyFirst(SymbolKey, "currency-symbol");
    EconomyFirst(DecimalsKey, "round-to-decimals");
    KeptApart(n, ChargePath(key, leaf), v, SymbolKey, TypesKey, EconomyKey);
    KeptApart(n, ChargePath(key, leaf), v, DecimalsKey, TypesKey, EconomyKey);
  }

  lemma KeptApart(n: Node, path: string, v: Scalar, other: string, first: string, otherFirst: string)
    requires |Split(path, Separator)| >= 1 && Split(path, Separator)[0] == first
    requires |Split(other, Separator)| >= 1 && Split(other, Separator)[0] == otherFirst
    requires first != otherFirst
    ensures forall def :: GetString(Set(n, path, v), other, def) == GetString(n, other, def)
    ensures forall def :: GetInt(Set(n, path, v), other, def) == GetInt(n, other, def)
  {
    GetSetApart(n, path, v, other);
  }

  lemma EconomyFirst(k: string, rest: string)
    requires k == EconomyKey + [Separator] + rest
    ensures |Split(k, Separator)| >= 1 && Split(k, Separator)[0] == EconomyKey
  {
    SplitAfterKey(EconomyKey, Separator, rest);
  }

  /**
   * A fixed price written with `set` at `types.<key>.charge.fixed` is what the cost
   * placeholder of any spelling of `key` prints: the configured symbol, then the price
   * rendered at `round-to-decimals` places, both as configured before.
   */
  lemma CostReadsBack(n: Node, key: string, t: string, x: Decimal)
    requires t != "" && Separator !in key
    requires EqualsIgnoreCase(key, t) && OnlySpelling(Below(n, TypesKey), key, t)
    ensures CostText(Set(n, ChargePath(key, FixedKey), Num(x)), t)
      == CurrencySymbol(n) + Render(x, GetInt(n, DecimalsKey, 2))
  {
    LeavesDotFree();
    var cfg := Set(n, ChargePath(key, FixedKey), Num(x));
    ChargeLeafReadsBack(n, key, t, FixedKey, Num(x));
    assert FixedOf(ChargeSection(cfg, t).value) == Some(x);
    EconomySettingsKept(n, key, FixedKey, Num(x));
  }

  lemma LeavesDotFree()
    ensures Separator !in FixedKey && Separator !in PercentKey
  {
  }

  /**
   * A percentage written with `set` at `types.<key>.charge.percent` is what the percent
   * placeholder of any spelling of `key` prints: its plain text without trailing zeros, then `%`.
   */
  lemma PercentReadsBack(n: Node, key: string, t: string, x: Decimal)
    requires t != "" && Separator !in key
    requires EqualsIgnoreCase(key, t) && OnlySpelling(Below(n, TypesKey), key, t)
    ensures PercentText(Set(n, ChargePath(key, PercentKey), Num(x)), t)
      == Plain(StripTrailingZeros(x)) + "%"
  {
    LeavesDotFree();
    var cfg := Set(n, ChargePath(key, PercentKey), Num(x));
    ChargeLeafReadsBack(n, key, t, PercentKey, Num(x));
    assert GetNumber(Section(ChargeSection(cfg, t).value), PercentKey) == Some(x);
  }

  /** A type that no key of `types` matches, or an empty type, answers `""` to both placeholders. */
  lemma UnknownTypeAnswersNothing(cfg: Node, t: string)
    requires t != "" && GetSection(cfg, TypesKey).Some? ==>
      forall j :: 0 <= j < |GetSection(cfg, TypesKey).value| ==>
        !EqualsIgnoreCase(GetSection(cfg, TypesKey).value[j].key, t)
    ensures CostText(cfg, t) == "" && PercentText(cfg, t) == ""
  {
    LowerIdempotent(t);
  }
}

=== FILE: reload.dfy ===
/**
 * `/graveecon reload` and its tab completion: a permitted, well-formed command re-reads the
 * module configuration and publishes a new `ChargeConfig` through the shared runtime.
 *
 * The sender's permissions, the configuration read back from disk and the runtime the
 * services manager hands out are parameters.
 */
module Reload {
  import opened Wrappers
  import opened Text
  import opened Config
  import opened Charges
  import Runtime

  const Name := "graveecon"
  const Usage := "/graveecon reload"
  const Permission := "graves.economy.reload"
  const SubCommand := "reload"

  /** The messages a sender can receive, with their chat colour codes. */
  const NoPermission := "§cYou don't have permission to do that."
  const UsageMessage := "§eUsage: " + Usage
  const Reloaded := "§a[Economy-Vault] Config reloaded."
  const NoRuntime := "§c[Economy-Vault] Runtime not available; is the module enabled?"

  /**
   * What a command run did: whether it was handled, what the sender was told, whether
   * the module configuration was re-read, and the runtime afterwards.
   */
  datatype Outcome = Outcome(handled: bool, messages: seq<string>, reloaded: bool,
                             runtime: Option<Runtime.EconomyRuntime>)

  /** Exactly one argument, `reload` in any case. */
  predicate ValidUsage(args: seq<string>) {
    |args| == 1 && EqualsIgnoreCase(SubCommand, args[0])
  }

  /** `onCommand(sender, command, label, args)`; `loaded` is the configuration after `reloadConfig()`. */
  function OnCommand(hasPermission: string -> bool, args: seq<string>, loaded: Node,
                     runtime: Option<Runtime.EconomyRuntime>): (r: Outcome)
    ensures r.handled && |r.messages| == 1
    ensures r.reloaded <==> hasPermission(Permission) && ValidUsage(args)
    ensures !hasPermission(Permission) ==> r.messages == [NoPermission] && r.runtime == runtime
    ensures hasPermission(Permission) && !ValidUsage(args) ==> r.messages == [UsageMessage] && r.runtime == runtime
    ensures r.runtime.Some? <==> runtime.Some?
    ensures r.reloaded && runtime.Some? ==>
      Runtime.Get(r.runtime.value) == ChargeConfig(loaded) && r.messages == [Reloaded]
    ensures r.reloaded && runtime.None? ==> r.messages == [NoRuntime]
  {
    if !hasPermission(Permission) then Outcome(true, [NoPermission], false, runtime)
    else if !ValidUsage(args) then Outcome(true, [UsageMessage], false, runtime)
    else
      var next := ChargeConfig(loaded);
      match runtime
      case Some(rt) => Outcome(true, [Reloaded], true, Some(Runtime.Set(rt, next)))
      case None => Outcome(true, [NoRuntime], true, None)
  }

  /** Reloading twice from the same configuration leaves the runtime as one reload does. */
  lemma ReloadIdempotent(hasPermission: string -> bool, args: seq<string>, loaded: Node,
                         runtime: Option<Runtime.EconomyRuntime>)
    ensures var once := OnCommand(hasPermission, args, loaded, runtime);
      OnCommand(hasPermission, args, loaded, once.runtime).runtime == once.runtime
  {
  }

  /**
   * After a reload the listeners read the new file: the rounding and the enabled flag they
   * see are the ones `loaded` holds, whatever the runtime held before.
   */
  lemma ReloadPublishes(hasPermission: string -> bool, loaded: Node, rt: Runtime.EconomyRuntime, t: ChargeType)
    requires hasPermission(Permission)
    ensures var r := OnCommand(hasPermission, [SubCommand], loaded, Some(rt));
      r.runtime.Some?
      && Rounding(Runtime.Get(r.runtime.value)) == Rounding(ChargeConfig(loaded))
      && IsTypeEnabled(Runtime.Get(r.runtime.value), t) == IsTypeEnabled(ChargeConfig(loaded), t)
  {
    assert ValidUsage([SubCommand]);
  }

  /** `StringUtil.copyPartialMatches(token, originals, out)` on an empty `out`. */
  function CopyPartialMatches(token: string, originals: seq<string>): (r: seq<string>)
    ensures |r| <= |originals|
    ensures forall s :: s in r ==> s in originals && StartsWithIgnoreCase(s, token)
    ensures forall s :: s in originals && StartsWithIgnoreCase(s, token) ==> s in r
    decreases |originals|
  {
    if |originals| == 0 then []
    else
      var rest := CopyPartialMatches(token, originals[1..]);
      if StartsWithIgnoreCase(originals[0], token) then [originals[0]] + rest else rest
  }

  /** Matches keep the originals' order and duplicates: the matches of a concatenation are the concatenated matches. */
  lemma {:induction false} PartialMatchesConcat(token: string, a: seq<string>, b: seq<string>)
    ensures CopyPartialMatches(token, a + b) == CopyPartialMatches(token, a) + CopyPartialMatches(token, b)
    decreases |a|
  {
    if |a| == 0 {
      assert a + b == b;
    } else {
      assert (a + b)[0] == a[0] && (a + b)[1..] == a[1..] + b;
      PartialMatchesConcat(token, a[1..], b);
    }
  }

  /** One candidate is kept, once, exactly when the token prefixes it. */
  lemma PartialMatchesOne(token: string, s: string)
    ensures CopyPartialMatches(token, [s]) == if StartsWithIgnoreCase(s, token) then [s] else []
  {
    assert [s][1..] == [];
  }

  /** `onTabComplete(sender, command, alias, args)`. */
  function OnTabComplete(args: seq<string>): (r: seq<string>)
    ensures |args| != 1 ==> r == []
    ensures |args| == 1 ==> (SubCommand in r <==> StartsWithIgnoreCase(SubCommand, args[0]))
    ensures forall s :: s in r ==> s == SubCommand
  {
    if |args| == 1 then CopyPartialMatches(args[0], [SubCommand]) else []
  }

  /** Every completion offered, typed as the one argument, is a command that reloads. */
  lemma CompletionAccepted(hasPermission: string -> bool, token: string, s: string, loaded: Node,
                           runtime: Option<Runtime.EconomyRuntime>)
    requires hasPermission(Permission) && s in OnTabComplete([token])
    ensures OnCommand(hasPermission, [s], loaded, runtime).reloaded
  {
  }

  /** Any case of a prefix of `reload` is completed to `reload`, the full word included. */
  lemma PrefixCompletes(token: string)
    requires |token| <= |SubCommand| && EqualsIgnoreCase(SubCommand[..|token|], token)
    ensures OnTabComplete([token]) == [SubCommand]
  {
    assert StartsWithIgnoreCase(SubCommand, token);
    assert [SubCommand][1..] == [];
  }

  /** A first argument that no prefix of `reload` matches gets no completion. */
  lemma NonPrefixIgnored(token: string)
    requires !StartsWithIgnoreCase(SubCommand, token)
    ensures OnTabComplete([token]) == []
  {
    assert [SubCommand][1..] == [];
  }
}

=== FILE: runtime.dfy ===
/**
 * `EconomyRuntime`: the one mutable reference through which listeners and commands see
 * the charge configuration in force. Each update is a new holder value.
 */
module Runtime {
  import opened Charges

  datatype EconomyRuntime = EconomyRuntime(config: ChargeConfig)

  /** `new EconomyRuntime(initial)`. */
  function New(initial: ChargeConfig): (r: EconomyRuntime)
    ensures Get(r) == initial
  {
    EconomyRuntime(initial)
  }

  /** `get()`. */
  function Get(r: EconomyRuntime): ChargeConfig {
    r.config
  }

  /**
   * `set(next)`: stores `next` without looking at it. Nothing of the earlier holder
   * survives: the result is the holder a fresh construction with `next` gives.
   */
  function Set(r: EconomyRuntime, next: ChargeConfig): (r': EconomyRuntime)
    ensures Get(r') == next
    ensures r' == New(next)
  {
    EconomyRuntime(next)
  }

  /** The holder after `set` is called with each of `nexts` in turn. */
  function SetAll(r: EconomyRuntime, nexts: seq<ChargeConfig>): EconomyRuntime
    decreases |nexts|
  {
    if |nexts| == 0 then r else SetAll(Set(r, nexts[0]), nexts[1..])
  }

  /** After a run of updates, `get()` returns the last one; with none, the holder is as it was. */
  lemma {:induction false} LastSetWins(r: EconomyRuntime, nexts: seq<ChargeConfig>)
    ensures |nexts| == 0 ==> SetAll(r, nexts) == r
    ensures |nexts| > 0 ==> Get(SetAll(r, nexts)) == nexts[|nexts| - 1]
    decreases |nexts|
  {
    if |nexts| > 1 {
      LastSetWins(Set(r, nexts[0]), nexts[1..]);
      assert nexts[1..][|nexts| - 2] == nexts[|nexts| - 1];
    }
  }
}

=== FILE: text.dfy ===
/**
 * The java.lang.String operations the economy module relies on, over `seq<char>`.
 * Case mapping is modelled for the ASCII letters only (`Locale.ROOT` on ASCII text).
 */
module Text {
  import opened Wrappers

  /* ---------------------------------------------------------------- case */

  function LowerChar(c: char): char {
    if 'A' <= c <= 'Z' then (c as int + 32) as char else c
  }

  function UpperChar(c: char): char {
    if 'a' <= c <= 'z' then (c as int - 32) as char else c
  }

  /** `String.toLowerCase(Locale.ROOT)` on ASCII letters. */
  function ToLower(s: string): (r: string)
    ensures |r| == |s|
    ensures forall i :: 0 <= i < |s| ==> r[i] == LowerChar(s[i])
  {
    seq(|s|, i requires 0 <= i < |s| => LowerChar(s[i]))
  }

  /** `String.toUpperCase(Locale.ROOT)` on ASCII letters. */
  function ToUpper(s: string): (r: string)
    ensures |r| == |s|
    ensures forall i :: 0 <= i < |s| ==> r[i] == UpperChar(s[i])
  {
    seq(|s|, i requires 0 <= i < |s| => UpperChar(s[i]))
  }

  lemma LowerIdempotent(s: string)
    ensures ToLower(ToLower(s)) == ToLower(s)
  {
  }

  /** `String.equalsIgnoreCase`. */
  predicate EqualsIgnoreCase(a: string, b: string) {
    ToLower(a) == ToLower(b)
  }

  /** Bukkit's `StringUtil.startsWithIgnoreCase(s, prefix)`. */
  predicate StartsWithIgnoreCase(s: string, prefix: string) {
    |prefix| <= |s| && EqualsIgnoreCase(s[..|prefix|], prefix)
  }

  predicate EndsWith(s: string, suffix: string) {
    |suffix| <= |s| && s[|s| - |suffix|..] == suffix
  }

  lemma ToLowerConcat(a: string, b: string)
    ensures ToLower(a + b) == ToLower(a) + ToLower(b)
  {
    assert forall i :: 0 <= i < |a + b| ==> ToLower(a + b)[i] == (ToLower(a) + ToLower(b))[i];
  }

  /* ---------------------------------------------------------------- trim */

  /** `String.trim` drops every leading and trailing code point up to U+0020. */
  predicate Blank(c: char) {
    c <= ' '
  }

  predicate AllBlank(w: string) {
    forall i :: 0 <= i < |w| ==> Blank(w[i])
  }

  function TrimStart(s: string): string
    decreases |s|
  {
    if |s| > 0 && Blank(s[0]) then TrimStart(s[1..]) else s
  }

  function TrimEnd(s: string): string
    decreases |s|
  {
    if |s| > 0 && Blank(s[|s| - 1]) then TrimEnd(s[..|s| - 1]) else s
  }

  function Trim(s: string): string {
    TrimEnd(TrimStart(s))
  }

  lemma {:induction false} TrimStartBlankPrefix(w: string, s: string)
    requires AllBlank(w)
    ensures TrimStart(w + s) == TrimStart(s)
    decreases |w|
  {
    if |w| > 0 {
      assert (w + s)[1..] == w[1..] + s;
      TrimStartBlankPrefix(w[1..], s);
    } else {
      assert w + s == s;
    }
  }

  lemma {:induction false} TrimEndBlankSuffix(s: string, w: string)
    requires AllBlank(w)
    ensures TrimEnd(s + w) == TrimEnd(s)
    decreases |w|
  {
    if |w| > 0 {
      assert (s + w)[..|s + w| - 1] == s + w[..|w| - 1];
      TrimEndBlankSuffix(s, w[..|w| - 1]);
    } else {
      assert s + w == s;
    }
  }

  /** Surrounding `s` with blanks does not change what `trim` returns, when `s` is already trimmed. */
  lemma TrimPadded(w1: string, s: string, w2: string)
    requires AllBlank(w1) && AllBlank(w2)
    requires |s| > 0 ==> !Blank(s[0]) && !Blank(s[|s| - 1])
    ensures Trim(w1 + s + w2) == s
  {
    assert w1 + s + w2 == w1 + (s + w2);
    TrimStartBlankPrefix(w1, s + w2);
    if |s| > 0 {
      assert (s + w2)[0] == s[0];
      TrimEndBlankSuffix(s, w2);
    } else {
      assert s + w2 == w2;
      TrimStartBlankPrefix(w2, "");
      assert w2 + "" == w2;
    }
  }

  /* ---------------------------------------------------------------- join and split */

  /** `String.join(sep, parts)`. */
  function Join(parts: seq<string>, sep: string): string
    decreases |parts|
  {
    if |parts| == 0 then ""
    else if |parts| == 1 then parts[0]
    else parts[0] + sep + Join(parts[1..], sep)
  }

  function IndexOfChar(s: string, c: char): (r: Option<nat>)
    ensures r.Some? ==> r.value < |s| && s[r.value] == c
    ensures forall j :: 0 <= j < |s| && (r.None? || j < r.value) ==> s[j] != c
    decreases |s|
  {
    if |s| == 0 then None
    else if s[0] == c then Some(0)
    else match IndexOfChar(s[1..], c)
      case None => None
      case Some(i) => Some(i + 1)
  }

  /** Cuts `s` at every `c`, keeping empty pieces (the way Bukkit walks a dotted path). */
  function Split(s: string, c: char): (r: seq<string>)
    ensures |r| >= 1
    ensures forall i :: 0 <= i < |r| ==> c !in r[i]
    ensures Join(r, [c]) == s
    decreases |s|
  {
    match IndexOfChar(s, c)
    case None => [s]
    case Some(i) =>
      var rest := Split(s[i + 1..], c);
      assert ([s[..i]] + rest)[1..] == rest;
      assert s == s[..i] + [c] + s[i + 1..];
      [s[..i]] + rest
  }

  lemma IndexOfCharAfter(a: string, c: char, b: string)
    requires c !in a
    ensures IndexOfChar(a + [c] + b, c) == Some(|a|)
  {
    var s := a + [c] + b;
    assert s[|a|] == c;
    assert forall j :: 0 <= j < |a| ==> s[j] == a[j];
  }

  /** Joining pieces free of `c` with `c`, then splitting at `c`, gives the pieces back. */
  lemma {:induction false} SplitJoin(parts: seq<string>, c: char)
    requires |parts| >= 1
    requires forall i :: 0 <= i < |parts| ==> c !in parts[i]
    ensures Split(Join(parts, [c]), c) == parts
    decreases |parts|
  {
    if |parts| == 1 {
      SplitNoSeparator(parts[0], c);
    } else {
      var tail := Join(parts[1..], [c]);
      assert Join(parts, [c]) == parts[0] + [c] + tail;
      IndexOfCharAfter(parts[0], c, tail);
      var s := parts[0] + [c] + tail;
      assert s[..|parts[0]|] == parts[0];
      assert s[|parts[0]| + 1..] == tail;
      SplitJoin(parts[1..], c);
      assert parts == [parts[0]] + parts[1..];
    }
  }

  /** Splitting `key.rest` with a dot-free `key` yields `key` followed by the pieces of `rest`. */
  lemma SplitAfterKey(key: string, c: char, rest: string)
    requires c !in key
    ensures Split(key + [c] + rest, c) == [key] + Split(rest, c)
  {
    IndexOfCharAfter(key, c, rest);
    var s := key + [c] + rest;
    assert s[..|key|] == key;
    assert s[|key| + 1..] == rest;
  }

  /** A piece-free string splits into itself. */
  lemma SplitNoSeparator(s: string, c: char)
    requires c !in s
    ensures Split(s, c) == [s]
  {
  }

  /* ---------------------------------------------------------------- substring search and replace */

  predicate OccursAt(s: string, pat: string, j: int) {
    0 <= j && j + |pat| <= |s| && s[j..j + |pat|] == pat
  }

  lemma OccursShift(s: string, pat: string, j: int)
    requires |s| > 0 && 0 <= j
    ensures OccursAt(s, pat, j + 1) <==> OccursAt(s[1..], pat, j)
  {
    if 0 <= j && j + 1 + |pat| <= |s| {
      assert s[1..][j..j + |pat|] == s[j + 1..j + 1 + |pat|];
    }
  }

  lemma OccursShiftAll(s: string, pat: string)
    requires |s| > 0
    ensures forall j :: 1 <= j ==> (OccursAt(s, pat, j) <==> OccursAt(s[1..], pat, j - 1))
  {
    forall j | 1 <= j
      ensures OccursAt(s, pat, j) <==> OccursAt(s[1..], pat, j - 1)
    {
      OccursShift(s, pat, j - 1);
    }
  }

  predicate NoOccurrence(s: string, pat: string) {
    forall j :: 0 <= j < |s| ==> !OccursAt(s, pat, j)
  }

  /** No occurrence of `pat` starts inside `piece`, even one running on into a following `pat`. */
  predicate LeftmostPiece(piece: string, pat: string) {
    forall j :: 0 <= j < |piece| ==> !OccursAt(piece + pat, pat, j)
  }

  /** `String.indexOf(pat)`: the first position at which `pat` occurs. */
  function IndexOf(s: string, pat: string): (r: Option<nat>)
    requires |pat| > 0
    ensures r.Some? ==> OccursAt(s, pat, r.value)
    ensures forall j :: 0 <= j && (r.None? || j < r.value) ==> !OccursAt(s, pat, j)
    decreases |s|
  {
    if |s| < |pat| then None
    else if s[..|pat|] == pat then Some(0)
    else
      var r := IndexOf(s[1..], pat);
      OccursShiftAll(s, pat);
      assert !OccursAt(s, pat, 0);
      match r
      case None => None
      case Some(i) =>
        OccursShift(s, pat, i);
        Some(i + 1)
  }

  lemma PrefixPieceLeftmost(s: string, pat: string, i: nat)
    requires |pat| > 0 && i + |pat| <= |s| && s[i..i + |pat|] == pat
    requires forall j :: 0 <= j < i ==> !OccursAt(s, pat, j)
    ensures LeftmostPiece(s[..i], pat)
  {
    assert s[..i] + pat == s[..i + |pat|];
    forall j | 0 <= j < i
      ensures !OccursAt(s[..i] + pat, pat, j)
    {
      var t := s[..i] + pat;
      assert t == s[..i + |pat|];
      assert t[j..j + |pat|] == s[j..j + |pat|];
      assert !OccursAt(s, pat, j);
    }
  }

  /**
   * Cuts `s` at the occurrences of `pat` found scanning left to right without overlap:
   * the pieces joined with `pat` give `s` back, the last piece holds no occurrence, and no
   * earlier piece holds one, not even one running into the `pat` that ends it.
   */
  function SplitOn(s: string, pat: string): (r: seq<string>)
    requires |pat| > 0
    ensures |r| >= 1
    ensures Join(r, pat) == s
    ensures NoOccurrence(r[|r| - 1], pat)
    ensures forall i :: 0 <= i < |r| - 1 ==> LeftmostPiece(r[i], pat)
    decreases |s|
  {
    match IndexOf(s, pat)
    case None => [s]
    case Some(i) =>
      var rest := SplitOn(s[i + |pat|..], pat);
      SplitOnJoin(s, pat, i, rest);
      PrefixPieceLeftmost(s, pat, i);
      SplitOnPieces(s[..i], rest, pat);
      [s[..i]] + rest
  }

  lemma SplitOnJoin(s: string, pat: string, i: nat, rest: seq<string>)
    requires i + |pat| <= |s| && s[i..i + |pat|] == pat
    requires |rest| >= 1 && Join(rest, pat) == s[i + |pat|..]
    ensures Join([s[..i]] + rest, pat) == s
  {
    JoinCons(s[..i], rest, pat);
    CutAround(s, i, i + |pat|);
  }

  lemma JoinCons(a: string, rest: seq<string>, sep: string)
    requires |rest| >= 1
    ensures Join([a] + rest, sep) == a + sep + Join(rest, sep)
  {
    assert ([a] + rest)[1..] == rest;
  }

  lemma CutAround(s: string, i: nat, m: nat)
    requires i <= m <= |s|
    ensures s[..i] + s[i..m] + s[m..] == s
  {
    assert s[..i] + s[i..m] == s[..m];
  }

  lemma SplitOnPieces(first: string, rest: seq<string>, pat: string)
    requires |rest| >= 1 && LeftmostPiece(first, pat)
    requires forall i :: 0 <= i < |rest| - 1 ==> LeftmostPiece(rest[i], pat)
    ensures var r := [first] + rest;
      r[|r| - 1] == rest[|rest| - 1] && forall i :: 0 <= i < |r| - 1 ==> LeftmostPiece(r[i], pat)
  {
    var r := [first] + rest;
    assert forall k :: 1 <= k < |r| ==> r[k] == rest[k - 1];
  }

  /** `String.replace(pat, rep)`: every occurrence of `pat`, scanning left to right, becomes `rep`. */
  function ReplaceAll(s: string, pat: string, rep: string): string
    requires |pat| > 0
  {
    Join(SplitOn(s, pat), rep)
  }

  /** Replacing a pattern that does not occur leaves the text unchanged. */
  lemma ReplaceAbsent(s: string, pat: string, rep: string)
    requires |pat| > 0
    requires NoOccurrence(s, pat)
    ensures ReplaceAll(s, pat, rep) == s
  {
    assert IndexOf(s, pat).None?;
  }

  /** Replacing a pattern by itself leaves the text unchanged. */
  lemma ReplaceBySelf(s: string, pat: string)
    requires |pat| > 0
    ensures ReplaceAll(s, pat, pat) == s
  {
  }

  /** A string without the character `c` holds no occurrence of a pattern that starts with `c`. */
  lemma NoOccurrenceWithout(s: string, pat: string)
    requires |pat| > 0 && pat[0] !in s
    ensures NoOccurrence(s, pat)
  {
  }

  /** Replacement starts at the first occurrence and goes on from just after it. */
  lemma ReplaceAfterFirst(a: string, pat: string, rep: string, b: string)
    requires |pat| > 0
    requires forall j :: 0 <= j < |a| ==> !OccursAt(a + pat + b, pat, j)
    ensures ReplaceAll(a + pat + b, pat, rep) == a + rep + ReplaceAll(b, pat, rep)
  {
    var s := a + pat + b;
    assert s[|a|..|a| + |pat|] == pat;
    assert OccursAt(s, pat, |a|);
    var i := IndexOf(s, pat);
    assert i == Some(|a|);
    assert s[..|a|] == a;
    assert s[|a| + |pat|..] == b;
    var rest := SplitOn(b, pat);
    assert SplitOn(s, pat) == [a] + rest;
    assert ([a] + rest)[1..] == rest;
  }

  /**
   * Filling a template: joining pieces free of the pattern's first character with the
   * pattern, then replacing the pattern, is joining the pieces with the replacement.
   */
  lemma {:induction false} ReplaceJoin(pieces: seq<string>, pat: string, rep: string)
    requires |pat| > 0 && |pieces| >= 1
    requires forall i :: 0 <= i < |pieces| ==> pat[0] !in pieces[i]
    ensures ReplaceAll(Join(pieces, pat), pat, rep) == Join(pieces, rep)
    decreases |pieces|
  {
    if |pieces| == 1 {
      NoOccurrenceWithout(pieces[0], pat);
      ReplaceAbsent(pieces[0], pat, rep);
    } else {
      var a := pieces[0];
      var b := Join(pieces[1..], pat);
      forall j | 0 <= j < |a|
        ensures !OccursAt(a + pat + b, pat, j)
      {
        assert (a + pat + b)[j] == a[j];
      }
      ReplaceAfterFirst(a, pat, rep, b);
      ReplaceJoin(pieces[1..], pat, rep);
    }
  }
}

=== FILE: wrappers.dfy ===
/** Option and Result: the model's stand-ins for Java's null and for thrown exceptions. */
module Wrappers {

  datatype Option<+T> = None | Some(value: T) {

    /** The value, or `default` when there is none (Java's `x != null ? x : default`). */
    function GetOr(default: T): T {
      match this
      case Some(v) => v
      case None => default
    }
  }

  datatype Result<+T, +E> = Ok(value: T) | Err(error: E)
}
